=== FILE: README.md ===
# Falling blocks, Pong and the game-board helpers, in Dafny

This project models the game logic of a small MicroPython game collection
for an ESP32 board with a 240 x 135 display and two buttons. All state is
held in immutable datatypes, and each step is a pure function of the state,
the button levels of that tick and the random draws it makes.

- **`TetrisBlocks`** (`tetris_blocks.dfy`) holds the seven tetromino kinds.
  Each kind has four rotation tables of four offsets, a count of meaningful
  rotations (1, 2 or 4) and a colour index from 1 to 7. It also holds the
  counter-clockwise rotation step.
- **`TetrisScreen`** (`tetris_screen.dfy`) is the 10 x 20 board of colour
  indices, indexed `screen[x][y]`, where 0 means empty. It holds the
  collision check `GetSquares` and the cell writes.
- **`TetrisLines`** (`tetris_lines.dfy`) is `DeleteLine`. A top-to-bottom
  scan removes full rows by copying the rows above down by one, and scores
  1, 2, 4, ... points per removed row. The level and speed follow the score.
- **`Tetris`** (`tetris_game.dfy`) is one tick of the engine.
  - Key sampling with the edge latches (`KeyPadLoop`).
  - The move proposal: gravity, turbo, and one intent per tick (`GetNextPosRot`).
  - Commit or lock (`ReviseScreen`), spawning (`PutStartPos`) and reset (`ResetGame`).
  - The game-over countdown of `loop`.
  - The falling piece lives inside the board: each tick its cells are
    cleared, the proposal is checked, and the piece is written back.
- **`GameEsp`** (`game_esp.dfy`) covers the board library: `Rect.move` and
  `Rect.colliderect`, the button bitmask with its edge tests, `getBtn`,
  `setVol`, `setFrameRate` and `random`.
- **`Typeset`** (`typeset.dfy`) covers the text cursor of `typeset` and
  `typesetlist`, `maxchars`, and the debounced button handler.
- **`Menu`** (`menu.dfy`) is the launcher's `MenuSelector`: a cyclic cursor
  over the script names that start with a prefix.
- **`Pong`** (`pong.dfy`) holds the integer Pong rules.
  - Bat steering by buttons or by the tracker.
  - Ball movement, and bounces off the walls and the bats.
  - Scoring and game over.
  - Extra balls up to three.
- **`Outcomes`** (`outcomes.dfy`) models Python exceptions as a `Result`. It
  also gives Python's floor division and remainder.

The main engine results are these:

- **Line clear.** `DeleteLine` leaves F copies of the old row 0 on top,
  where F is the number of full rows. Below them come the non-full rows in
  their old order.
- **Score.** The score grows by exactly 2^F - 1.
- **Invariant.** Every tick of `loop` keeps a stated invariant, whatever the
  buttons and the random draws:
  - the board holds only colours 0 to 7;
  - the piece is a catalogue piece in a real rotation, on the board;
  - the counters stay in range;
  - during play the piece's cells are either all its colour or all empty.

Line removal (`_g_tet.py:230-232`) copies each row above a full row down
by one, and never clears row 0. So row 0 stays as it was and is duplicated
downwards. A full row 0 is scored but stays in place, because the shifting
loop `range(0, 0, -1)` is empty. `DeleteLine` and `DeleteLineSettles` state
these effects.

## Model

| member | source | states |
|---|---|---|
| TetrisBlocks.CatalogueShape | _g_tet.py:58-80 | Every kind has four rotation tables of four offsets, each offset in [-1, 2] on both axes. Its rotation count is 1, 2 or 4 and its colour is its index plus one. Every rotation below the count has four distinct cells. |
| TetrisBlocks.CatalogueMember | _g_tet.py:179-180 | Any block copied from the catalogue has the catalogue's shape and real rotations. |
| TetrisBlocks.CcwRot | _g_tet.py:211-213 | The rotate step stays within [0, numRotate). It goes from 0 to numRotate - 1 and otherwise down by one, so a padding table is never selected. |
| TetrisBlocks.CcwDescends | _g_tet.py:211-213 | Above 0, k rotate steps lower the rotation by k. |
| TetrisBlocks.CcwCompose | _g_tet.py:211-213 | a + b rotate steps equal a steps followed by b steps. |
| TetrisBlocks.CcwFullTurn | _g_tet.py:211-213 | numRotate rotate steps return to the starting rotation. |
| TetrisScreen.EmptyScreen | _g_tet.py:21 | The initial board is 10 x 20 and every cell is 0. |
| TetrisScreen.Squares | _g_tet.py:247-250 | The four cells of a piece are its pivot plus the four offsets of the chosen rotation. |
| TetrisScreen.Overlap | _g_tet.py:246-251 | The accumulated overlap flag is true iff some cell is off the board or occupied. The bounds tests guard the board read. |
| TetrisScreen.GetSquares | _g_tet.py:242-253 | A placement is movable iff all four cells are on the board and empty. The cells returned are the placement's cells. |
| TetrisScreen.Paint | _g_tet.py:262-263 | Writing a colour to a list of cells sets exactly those cells and leaves every other cell as it was. |
| TetrisScreen.PaintWellFormed | _g_tet.py:262-263 | Writing a colour from 0 to 7 keeps every cell within 0 to 7. |
| TetrisScreen.PaintSame | _g_tet.py:268-269 | Rewriting cells with the value they already hold leaves the board unchanged. |
| TetrisScreen.RepaintSame | _g_tet.py:258-269 | Lifting a drawn piece and painting it back in its colour restores the board exactly. |
| TetrisLines.CopyRowDown | _g_tet.py:231-232 | Copying row k-1 into row k changes row k only. |
| TetrisLines.ShiftDown | _g_tet.py:230-232 | Removing row j moves rows 0..j-1 down by one. Row 0 keeps its contents and rows below j are untouched. |
| TetrisLines.LevelOf | _g_tet.py:235 | The level is the score divided by 10, rounded down, capped at 10. |
| TetrisLines.Bump | _g_tet.py:233-236 | One removed row doubles the points and raises the score by the old points, so the score gains what the points gain. The level lands in [0, 10] and the speed in [0, 100]. |
| TetrisLines.Scan | _g_tet.py:224-236 | The row loop keeps the board's dimensions and never lowers the points. Across the loop the score gains exactly what the points gain. The board and the awards are pinned down by ScanCompacts and ScanAwards. |
| TetrisLines.ScanCompacts | _g_tet.py:224-232 | Invariant of the row scan. Rows below the scan are untouched. The rows above it are the F full rows seen so far as copies of row 0, then the non-full rows in order. |
| TetrisLines.ScanAwards | _g_tet.py:223-236 | The scan's score, points, level and speed equal one award per full row of the original board. |
| TetrisLines.AwardTotal | _g_tet.py:233-236 | Awards with doubling points starting at 1 add 2^k - 1 to the score in total. After at least one award, level and speed follow the score. |
| TetrisLines.DeleteLine | _g_tet.py:220-239 | The result is F copies of the old row 0 over the non-full rows in order, where F counts the full rows. The score rises by 2^F - 1. With F = 0 the board, level and speed are unchanged. Otherwise the level is the score divided by 10, capped at 10, and the speed is 100 - 10 * level. |
| TetrisLines.DeleteLineWellFormed | _g_tet.py:220-236 | Line removal keeps every cell within 0 to 7 and never lowers the score. |
| TetrisLines.DeleteLineSettles | _g_tet.py:224-232 | When row 0 is not full, no full row remains afterwards, and a second call changes nothing. |
| TetrisLines.NoneFullKeepsAll | _g_tet.py:225-229 | With no full row, every row is kept. |
| Tetris.SpawnInBounds | _g_tet.py:174-181 | A spawn at columns 1 to 7, row 1, in any real rotation of any kind lies fully on the board. |
| Tetris.PutStartPos | _g_tet.py:174-181 | The new piece is the drawn kind at the drawn column, in row 1, in the drawn rotation. It is a catalogue piece in a real rotation, lies on the board and has turbo off. Nothing else changes. |
| Tetris.KeyPadLoop | _g_tet.py:133-171 | At most one intent is set per tick, and setting it clears the others. The checks run in the order left-only, right-only, B, both. Each intent is set only under its button pattern with a clear latch, and it is set whenever that holds and no earlier check fired. The intent that fires sets its latch. A checked pattern that is held without firing clears its latch. Every other latch is unchanged. |
| Tetris.HeldLeftRepeats | _g_tet.py:136-143 | Holding only the left button produces a left intent on every other tick. |
| Tetris.HeldDropRepeats | _g_tet.py:153-161 | Holding only B produces a drop intent on every other tick. |
| Tetris.GetNextPosRot | _g_tet.py:197-217 | The fall counter advances modulo 10. The proposal is one row down when the counter wraps or turbo is on. Otherwise it is left, else right, else a rotate step. Only the consumed intent is cleared, turbo becomes the B level, and nothing else changes. |
| Tetris.ProposalIsOneStep | _g_tet.py:201-213 | A proposal is one row down, one column left or right, one rotate step, or no change. |
| Tetris.ReviseScreen | _g_tet.py:256-280 | A tick's commit or lock keeps the board size. It never touches the fall counter, intents or latches, and never lowers the score. It either keeps the game-over value or sets it to 10. |
| Tetris.ReviseCommits | _g_tet.py:258-265 | A proposal that fits once the piece is lifted is taken. The new cells get the colour and the old cells are cleared. All other cells and fields are unchanged except position and rotation. |
| Tetris.ReviseRefuses | _g_tet.py:267-269 | A blocked sideways move or rotation keeps the piece drawn where it was and changes nothing else. |
| Tetris.RejectedMoveKeepsScreen | _g_tet.py:258-269 | For a drawn piece, a blocked sideways move or rotation returns exactly the previous game. |
| Tetris.ReviseLocks | _g_tet.py:267-278 | A blocked downward move draws the piece, removes full rows and scores, and spawns a new piece. A new piece that fits is left undrawn. One that does not fit is drawn and starts the game-over countdown at 10. |
| Tetris.ResetGame | _g_tet.py:282-296 | The board is empty apart from a freshly spawned piece in its colour. Game over is 0, score 0, speed 100 and level 1. |
| Tetris.CycleColors | _g_tet.py:188-191 | A game-over tick keeps colours in range. A cell becomes empty iff it was empty or held colour 7. |
| Tetris.CycleTimesCell | _g_tet.py:188-191 | After n game-over ticks a cell of colour c shows c + n while that is below 8, and is empty from then on. |
| Tetris.CycleBlanks | _g_tet.py:188-191 | Seven game-over ticks blank the whole board. |
| Tetris.ResetKeepsInv | _g_tet.py:282-296 | A reset yields a state of the invariant with the piece drawn. |
| Tetris.CommitKeepsInv | _g_tet.py:258-265 | A committed move keeps the invariant, with the piece drawn at its new place. |
| Tetris.RefuseKeepsInv | _g_tet.py:267-269 | A refused move keeps the invariant. |
| Tetris.LockKeepsInv | _g_tet.py:267-277 | A lock keeps the invariant. While the game goes on, the new piece's cells are empty. |
| Tetris.ReviseKeepsInv | _g_tet.py:256-280 | Commit or lock keeps the invariant and never lowers the score. |
| Tetris.Loop | _g_tet.py:313-328 | During play a tick never lowers the score and only ever sets game over to 10. During game over without the right button, the countdown strictly decreases. |
| Tetris.LoopKeepsInv | _g_tet.py:313-328 | Every pass of the main loop keeps the invariant for any buttons and random draws. |
| Tetris.PlayScoreGrows | _g_tet.py:324-328 | During play a pass never lowers the score. |
| Tetris.GameOverCountdown | _g_tet.py:315-322 | During game over the countdown drops by one and rises by 1000 while the right button is held. The left button or a countdown of 1 resets the score to 0, and the countdown ends at -1, or 999 with the right button. |
| GameEsp.Move | gameESP.py:489-491 | A move shifts x by vx and y by vy and keeps the size. |
| GameEsp.MoveInverse | gameESP.py:489-491 | Moving by (-vx, -vy) undoes a move by (vx, vy). |
| GameEsp.MoveKeepsCollision | gameESP.py:489-501 | Moving two rectangles by the same amount does not change whether they collide. |
| GameEsp.CollideIffSharedPoint | gameESP.py:494-501 | Rectangles of positive size collide iff some integer point lies in both. |
| GameEsp.CollideSymmetric | gameESP.py:494-501 | The collision test does not depend on argument order. |
| GameEsp.EmptyPairNeverCollides | gameESP.py:494-501 | Two rectangles that both have width at most 0, or both height at most 0, never collide. |
| GameEsp.ZeroWidthCanCollide | gameESP.py:494-501 | A rectangle of width 0 covers no point, yet it collides with a wider rectangle around it. |
| GameEsp.Colliderect | gameESP.py:494-501 | Two rectangles whose spans meet on both axes collide. For rectangles of positive size, they collide iff the spans meet on both axes. Colliding rectangles have positive total width and height. |
| GameEsp.Pressed | gameESP.py:370-371 | A mask reads as pressed iff some bit of it is set in the current sample. |
| GameEsp.JustPressed | gameESP.py:373-374 | A mask is just pressed iff it shares a bit with the current sample and no bit with the previous sample. |
| GameEsp.JustReleased | gameESP.py:376-377 | A mask is just released iff it shares a bit with the previous sample and no bit with the current sample. |
| GameEsp.EdgesExclusive | gameESP.py:370-377 | A press edge implies the button is held. Press and release edges never occur together, and a release edge implies the button is up. |
| GameEsp.GetBtn | gameESP.py:379-396 | The previous sample becomes the last sample. The new sample has A's bit iff A's pin is low and B's bit iff B's pin is low, and no other bit. |
| GameEsp.GetBtnEdges | gameESP.py:373-396 | After a sample, a button is just pressed iff it is down now and was up before. It is just released iff it is up now and was down before. |
| GameEsp.HoldFiresOnce | gameESP.py:373-396 | Holding A over two samples gives a press edge on the first only. |
| GameEsp.SetVol | gameESP.py:399-410 | A change happens iff B is held and B or A was just pressed. B raises the volume, capped at 6. Otherwise A lowers it, floored at 0. In range the volume moves by at most one. |
| GameEsp.VolUpDown | gameESP.py:399-410 | Below the maximum, volume up then volume down returns to the start. |
| GameEsp.SetFrameRate | gameESP.py:412-421 | A B press edge steps the rate up, else a held A steps it down. The rate stays a multiple of 5 in [5, 120]. |
| GameEsp.FrameUp | gameESP.py:414 | The upward step keeps the rate valid and wraps 120 to 5. |
| GameEsp.FrameDown | gameESP.py:418 | The downward step keeps the rate valid and wraps 5 to 120. |
| GameEsp.FrameStepsInverse | gameESP.py:412-421 | On valid rates a step down undoes a step up, and the other way round. |
| GameEsp.FrameUpClimbs | gameESP.py:414 | Below the top, k steps up add 5k. |
| GameEsp.FrameUpCompose | gameESP.py:414 | a + b steps up equal a steps followed by b steps. |
| GameEsp.FrameUpCycle | gameESP.py:414 | 24 steps up return to any valid rate. |
| GameEsp.Random | gameESP.py:470-471 | For y >= x the draw lies in [x, y]. For y = x - 1 the draw divides by zero. For y < x - 1 it lies in (y + 1, x], following Python's remainder. |
| GameEsp.RandomCoversRange | gameESP.py:470-471 | Every value of a non-empty range of at most 2^20 values is produced by some 20-bit draw of `getrandbits(20)`. |
| GameEsp.RandomIn | gameESP.py:470-471 | On a non-empty range the draw is a successful value within the range. |
| Menu.Filter | menu.py:30 | The options are exactly the listed names that start with the prefix. Each such name occurs as often as in the listing, and every other name does not occur. |
| Menu.FilterIsSubsequence | menu.py:30 | The options keep the listing's order. |
| Menu.Init | menu.py:28-30 | A new selector points at the first filtered name. |
| Menu.Incr | menu.py:31-32 | With no options this divides by zero. Otherwise the cursor moves to the next option, wrapping from the last to the first. |
| Menu.Decr | menu.py:33-34 | With no options this divides by zero. Otherwise the cursor moves to the previous option, wrapping from the first to the last. |
| Menu.IncrDecrInverse | menu.py:31-34 | decr undoes incr and incr undoes decr. |
| Menu.IncrClimbs | menu.py:31-32 | Below the last option, j presses move the cursor j places. |
| Menu.IncrCompose | menu.py:31-32 | a + b presses equal a presses followed by b presses. |
| Menu.IncrWraps | menu.py:31-32 | Pressing past the last option lands on the first. |
| Menu.IncrFullCycle | menu.py:31-32 | As many presses as there are options bring the cursor back. |
| Menu.ListOptions | menu.py:35-36 | The list is the suffix of the options from the cursor, with Python's slice rules. On a valid cursor its first item is the selected option and its length is the count minus the cursor. A negative cursor k in range lists the last -k options, below the range it lists all options, and past the end it lists nothing. |
| Menu.GetSelection | menu.py:37-38 | The selected option follows Python's indexing: a cursor in [0, count) selects that option, and a negative cursor in [-count, 0) counts from the end. Any other cursor fails with an index error. |
| Menu.ListStartsAtSelection | menu.py:35-38 | On a valid cursor the listed options start with the selection and number count minus cursor. |
| Menu.NegativeCursorAgrees | menu.py:35-38 | A negative cursor behaves as the cursor count places higher for both listing and selecting, so the list still starts with the selection. |
| Menu.InitThenIncrValid | menu.py:28-38 | A new selector over no options fails on next and on selection and lists nothing. Over some options it and its neighbours are valid. |
| Typeset.Advance | tft_typeset.py:28-31 | After a character the column is at most width minus the font width. A newline always wraps. The line moves by 0 or one font height. Without a wrap the column advances by exactly one font width. |
| Typeset.TypesetFrom | tft_typeset.py:21-31 | The loop draws at most one glyph per character of the text. |
| Typeset.LayoutFacts | tft_typeset.py:21-31 | Every drawn glyph starts inside the display and shows a character of the text. The line never moves up. A cursor inside the display draws the first character where it stands. |
| Typeset.GlyphsInOrder | tft_typeset.py:21-31 | The characters drawn form a subsequence of the text. |
| Typeset.VisibleCharsDrawn | tft_typeset.py:21-27 | Every character reached at a cursor inside the display is drawn at that cursor. |
| Typeset.GlyphsFromVisible | tft_typeset.py:21-27 | Every glyph drawn is some character of the text, drawn at the cursor where the loop reached it, and that cursor is inside the display. |
| Typeset.CursorShift | tft_typeset.py:21-31 | The cursor at character i + 1 is the cursor at character i of the rest of the text, laid out from the cursor after the first character. |
| Typeset.Typeset | tft_typeset.py:17-31 | When the text is not empty and cell (coffset, loffset) is on the display, the first character is drawn there. Every drawn character starts inside the display. The drawn characters are characters of the text in the text's order. |
| Typeset.LinesFollowWraps | tft_typeset.py:28-31 | The line grows by one font height per wrap and by nothing else. There are at least as many wraps as newlines. |
| Typeset.TypesetSplit | tft_typeset.py:21-31 | Laying out a concatenation equals laying out the parts in turn. |
| Typeset.NoWrapRun | tft_typeset.py:28-31 | Characters that fit on the line advance the column by one cell each. |
| Typeset.Columns | tft_typeset.py:44 | The number of whole character cells across the display. |
| Typeset.LineCapacity | tft_typeset.py:28-31 | A line from column 0 holds exactly width // font width characters before wrapping. |
| Typeset.TypesetList | tft_typeset.py:33-37 | Item k is laid out from column 0 of text line k. |
| Typeset.ListItemStartsOnItsLine | tft_typeset.py:33-37 | When on screen, item k's first character is drawn at column 0, line k times the font height. |
| Typeset.MaxChars | tft_typeset.py:43-44 | The count is whole cells across times whole cells down. A zero font size divides by zero. |
| Typeset.MaxCharsOnDisplay | tft_typeset.py:43-44 | On 240 x 135 the large font holds 60 characters and the small one 240. |
| Typeset.NewButton | tft_typeset.py:52-55 | The first call is allowed only after the debounce interval. |
| Typeset.Handle | tft_typeset.py:61-64 | The handler fires iff the time is past the deadline. Firing moves the deadline to the time plus the interval. |
| Typeset.Fired | tft_typeset.py:61-64 | Callbacks run only at interrupt times after the first deadline. Any two consecutive ones are more than the interval apart. |
| Typeset.SpacedAllFire | tft_typeset.py:61-64 | Interrupts after the deadline, spaced more than the interval apart, all run the callback. |
| Pong.Init | _g_pong.py:91-164 | The left bat is the tracker in demo and one-player games, and the right bat only in demo. A bat that is not the tracker uses B for up and A for down. The left bat starts at x = 0 and the right one at x = 237, both at row 57 with size 2 x 20 and velocity 3. There is one ball, in the centre, and the scores are 0 with the game not over. |
| Pong.KeyStep | _g_pong.py:55-59 | Up moves the bat up by the velocity but not past 0. Down moves it down but not past 115. With both held, the down step applies to the result of the up step. A bat in range stays in range. |
| Pong.BothKeysCancel | _g_pong.py:55-59 | With both buttons held, a bat more than one step from the top stays put, and a bat nearer the top ends one step below the top. |
| Pong.Target | _g_pong.py:35-40 | The tracker follows the first ball of least horizontal distance below 40. With no such ball, the row is -1. |
| Pong.FirstNearestUnique | _g_pong.py:37-40 | The ball the tracker follows is unique. |
| Pong.TrackStep | _g_pong.py:41-47 | The tracker moves one pixel toward a non-negative target row, or not at all. |
| Pong.TrackNeverOvershoots | _g_pong.py:41-47 | A tracker step never passes its target row. |
| Pong.MoveBat | _g_pong.py:31-59 | A button bat follows the key step and stays in range. A tracker bat moves at most one pixel toward the first nearest ball, and stays put without one. Only the row changes. |
| Pong.MoveBall | _g_pong.py:67-69 | The ball moves across by its velocity and down by its angle. |
| Pong.MoveBallReversible | _g_pong.py:67-69 | Moving with velocity and angle negated takes the ball back. |
| Pong.NewAngle | _g_pong.py:177 | A new angle lies in [-2, 1]. |
| Pong.NewAngleCovers | _g_pong.py:177 | Every angle in [-2, 1] is drawn by some 20-bit draw. |
| Pong.Score | _g_pong.py:167-183 | The player's score rises by one and the other's is unchanged. The ball is removed if others remain. Otherwise it is recentred with velocity negated and a new angle. The game is over iff it was or the score reached 15. |
| Pong.HitWall | _g_pong.py:185-197 | A ball past the left edge scores for player 1 and past the right edge for player 0. Otherwise its angle flips iff it is past the top or bottom. At least one ball remains. |
| Pong.HitsAny | _g_pong.py:200-203 | A ball hits a bat iff it collides with some bat. |
| Pong.HitBat | _g_pong.py:200-207 | A ball touching a bat turns back once with a new angle, even if it touches both bats. Otherwise nothing changes. |
| Pong.HitBatKeepsSpeed | _g_pong.py:203-205 | A bat hit changes only the sign of the velocity. |
| Pong.MaybeSpawn | _g_pong.py:325-331 | A new centre ball is appended only while the game is on and fewer than 3 are in play. |
| Pong.BallCountKept | _g_pong.py:325-331 | Every rule keeps between one and three balls in play. |
| Pong.GameOverSticks | _g_pong.py:182-183 | Once the game is over, scoring keeps it over and no ball is added. |

## Left out

- Drawing is not modelled. That covers `Draw`, `DrawFrame`, the text of
  the game-over screen, every `tft`/`TD` call and the display drivers,
  because it is hardware output.
- `setup()` in `_g_tet.py` is not modelled, because `ResetGame` gives the
  start state instead. Its loop writes `numRotate` cells of the first piece
  rather than four (`_g_tet.py:308`). For the pieces with 1 or 2 rotations
  (the first, second, fourth and sixth catalogue entries) some cells stay
  empty; those with 4 rotations get all four. The first tick's lift and
  repaint (`_g_tet.py:258-269`) writes all four cells, so the invariant
  holds from the end of that tick on.
- Pin reads are replaced by one sample of each pin per tick.
  `KeyPadLoop` and `GetNextPosRot` read the pins several times within a
  tick, and the model treats those readings as equal. `Pong.MoveBat` takes
  one button sample for all bats, while `move_bat` calls `getBtn()` once
  per bat (`_g_pong.py:32`), shifting `Btns` into `lastBtns` each time. No
  modelled Pong rule reads `lastBtns`.
- Sleeps, frame pacing (`display_and_wait`), `gc.collect` and printing are
  not modelled, because they do not affect the game state.
- Audio is not modelled: `playTone`, `playSound`, `startSong` and
  `handleInterrupt`, because it is PWM hardware and timer callbacks.
- The analogue paddle is not modelled: `getPaddle` and Pong's paddle bat
  modes. They use floating point and the paddle's ADC.
- Tetris.Inv: after a reset the level is 1 while the score is 0, so the
  level does not always equal score // 10. The invariant only bounds the
  level to [0, 10] and the speed to [0, 100].
- TetrisLines.LevelOf: the source computes `int(score / 10.0)` in floating
  point, and the model uses integer division. The two agree while the
  quotient is exact, and past level 10 the cap applies either way.
- Typeset.MaxChars: `math.floor(width / font.WIDTH)` is floating point in
  the source, and the model uses integer floor division. The two agree for
  display-sized values.
- Typeset.Fired: `utime.ticks_ms()` wraps around in MicroPython, but the
  model treats time as an unbounded integer. The handler's two clock
  readings are taken as one.
- GameEsp.Buttons: the bitmask is 8 bits wide, while Python's int is
  unbounded. `getBtn` only ever produces bits 1 and 2.
- Pong.HitWall covers one ball. `check_ball_hits_wall` removes balls from
  the list it is iterating over, and which ball is checked next after a
  removal is not modelled.
- Pong's game loop and menu screen are not modelled, because they are
  drawing and button sequencing. The rules each tick applies are modelled:
  bat moves, bat and wall checks, ball moves and spawning.

=== FILE: game_esp.dfy ===
/**
  The integer parts of the shared game-board library: rectangle movement
  and overlap, the button bitmask with edge detection, the volume and
  frame-rate settings driven by the buttons, and the bounded random draw.
  Pin levels and random bits are parameters.
 */
module GameEsp {
  import opened Outcomes

  // ---------------------------------------------------------------------
  // Rectangles

  datatype Rect = Rect(x: int, y: int, w: int, h: int)

  /** `Rect.move`: translate by (vx, vy); the size is kept. */
  function Move(r: Rect, vx: int, vy: int): (m: Rect)
    ensures m.w == r.w && m.h == r.h
    ensures m.x - r.x == vx && m.y - r.y == vy
  {
    r.(x := r.x + vx, y := r.y + vy)
  }

  function Max(a: int, b: int): int { if a < b then b else a }
  function Min(a: int, b: int): int { if a < b then a else b }

  /**
    The spans `[lo1, lo1 + len1)` and `[lo2, lo2 + len2)` meet: the later
    start lies before the earlier end.
   */
  predicate SpansMeet(lo1: int, len1: int, lo2: int, len2: int) {
    Max(lo1, lo2) < Min(lo1 + len1, lo2 + len2)
  }

  /**
    `Rect.colliderect`: strict overlap on both axes. Spans that meet always
    collide, and for rectangles of positive size the two notions agree; a
    colliding pair has positive total width and height, but one of the two
    may be empty (see `ZeroWidthCanCollide`).
   */
  function Colliderect(a: Rect, b: Rect): (r: bool)
    ensures SpansMeet(a.x, a.w, b.x, b.w) && SpansMeet(a.y, a.h, b.y, b.h) ==> r
    ensures a.w > 0 && a.h > 0 && b.w > 0 && b.h > 0 ==>
      (r <==> SpansMeet(a.x, a.w, b.x, b.w) && SpansMeet(a.y, a.h, b.y, b.h))
    ensures r ==> a.w + b.w > 0 && a.h + b.h > 0
  {
    && a.x + a.w > b.x
    && a.x < b.x + b.w
    && a.y + a.h > b.y
    && a.y < b.y + b.h
  }

  /** The integer points covered by a rectangle: `[x, x + w) x [y, y + h)`. */
  predicate Covers(r: Rect, px: int, py: int) {
    r.x <= px < r.x + r.w && r.y <= py < r.y + r.h
  }

  /** Rectangles of positive size collide exactly when some integer point lies in both. */
  lemma CollideIffSharedPoint(a: Rect, b: Rect)
    requires a.w > 0 && a.h > 0 && b.w > 0 && b.h > 0
    ensures Colliderect(a, b) <==> exists px, py :: Covers(a, px, py) && Covers(b, px, py)
  {
    if Colliderect(a, b) {
      var px := if a.x < b.x then b.x else a.x;
      var py := if a.y < b.y then b.y else a.y;
      assert Covers(a, px, py) && Covers(b, px, py);
    }
  }

  /** Overlap does not depend on the order of the two rectangles. */
  lemma CollideSymmetric(a: Rect, b: Rect)
    ensures Colliderect(a, b) == Colliderect(b, a)
  {
  }

  /** Two rectangles that both lack width, or both lack height, never collide. */
  lemma EmptyPairNeverCollides(a: Rect, b: Rect)
    requires (a.w <= 0 && b.w <= 0) || (a.h <= 0 && b.h <= 0)
    ensures !Colliderect(a, b)
  {
  }

  /**
    The test compares edges, not covered points: a rectangle of width 0,
    which covers no point, still collides with a wider one around it.
   */
  lemma ZeroWidthCanCollide()
    ensures var thin := Rect(5, 0, 0, 4);
      var wide := Rect(0, 0, 10, 4);
      && Colliderect(thin, wide)
      && forall px, py :: !Covers(thin, px, py)
  {
  }

  /** Moving both rectangles by the same amount does not change whether they overlap. */
  lemma MoveKeepsCollision(a: Rect, b: Rect, vx: int, vy: int)
    ensures Colliderect(Move(a, vx, vy), Move(b, vx, vy)) == Colliderect(a, b)
  {
  }

  /** Moving back undoes a move. */
  lemma MoveInverse(r: Rect, vx: int, vy: int)
    ensures Move(Move(r, vx, vy), -vx, -vy) == r
  {
  }

  // ---------------------------------------------------------------------
  // Buttons

  /** Button bits of `Btns`: A is bit 1, B is bit 2. */
  const BtnA: bv8 := 1 << 1
  const BtnB: bv8 := 1 << 2

  /** The current and the previous button samples. */
  datatype Buttons = Buttons(btns: bv8, lastBtns: bv8)

  /** Bit `i` of a byte. */
  predicate BitAt(v: bv8, i: nat)
    requires i < 8
  {
    (v >> i) & 1 == 1
  }

  /** Some bit position is set both in `v` and in the mask `m`. */
  predicate Shares(v: bv8, m: bv8) {
    exists i :: 0 <= i < 8 && BitAt(v, i) && BitAt(m, i)
  }

  /** A non-zero `&` is the same as a shared bit position. */
  lemma AndNonZero(v: bv8, m: bv8)
    ensures v & m != 0 <==> Shares(v, m)
  {
    if v & m != 0 {
      if BitAt(v, 0) && BitAt(m, 0) {
      } else if BitAt(v, 1) && BitAt(m, 1) {
      } else if BitAt(v, 2) && BitAt(m, 2) {
      } else if BitAt(v, 3) && BitAt(m, 3) {
      } else if BitAt(v, 4) && BitAt(m, 4) {
      } else if BitAt(v, 5) && BitAt(m, 5) {
      } else if BitAt(v, 6) && BitAt(m, 6) {
      } else {
        assert BitAt(v, 7) && BitAt(m, 7);
      }
    } else {
      forall i | 0 <= i < 8
        ensures !(BitAt(v, i) && BitAt(m, i))
      {
        assert (v & m) >> i == 0;
      }
    }
  }

  /** `pressed`: some bit of the mask is set in the current sample. */
  function Pressed(b: Buttons, btn: bv8): (r: bool)
    ensures r <==> Shares(b.btns, btn)
  {
    AndNonZero(b.btns, btn);
    b.btns & btn != 0
  }

  /** `justPressed`: the mask shares a bit with the current sample and none with the previous one. */
  function JustPressed(b: Buttons, btn: bv8): (r: bool)
    ensures r <==> Shares(b.btns, btn) && !Shares(b.lastBtns, btn)
  {
    AndNonZero(b.btns, btn);
    AndNonZero(b.lastBtns, btn);
    b.btns & btn != 0 && b.lastBtns & btn == 0
  }

  /** `justReleased`: the converse, a bit shared with the previous sample and none with the current one. */
  function JustReleased(b: Buttons, btn: bv8): (r: bool)
    ensures r <==> Shares(b.lastBtns, btn) && !Shares(b.btns, btn)
  {
    AndNonZero(b.btns, btn);
    AndNonZero(b.lastBtns, btn);
    b.lastBtns & btn != 0 && b.btns & btn == 0
  }

  /** An edge up is seen only on a held button, and never together with an edge down. */
  lemma EdgesExclusive(b: Buttons, btn: bv8)
    ensures JustPressed(b, btn) ==> Pressed(b, btn)
    ensures !(JustPressed(b, btn) && JustReleased(b, btn))
    ensures JustReleased(b, btn) ==> !Pressed(b, btn)
  {
  }

  /**
    `getBtn`: the previous sample moves to `lastBtns`, and the new sample
    has bit 1 set when A's pin reads low and bit 2 when B's does.
   */
  function GetBtn(b: Buttons, aLow: bool, bLow: bool): (r: Buttons)
    ensures r.lastBtns == b.btns
    ensures r.btns & !(BtnA | BtnB) == 0
    ensures Pressed(r, BtnA) <==> aLow
    ensures Pressed(r, BtnB) <==> bLow
  {
    var aval: bv8 := if aLow then 1 else 0;
    var bval: bv8 := if bLow then 1 else 0;
    var btns: bv8 := 0 | (aval << 1) | (bval << 2);
    assert btns == (if aLow then BtnA else 0) | (if bLow then BtnB else 0);
    Buttons(btns, b.btns)
  }

  /** After a sample, a button is just pressed iff it is down now and was up at the previous sample. */
  lemma GetBtnEdges(b: Buttons, aLow: bool, bLow: bool)
    requires b.btns & !(BtnA | BtnB) == 0
    ensures var r := GetBtn(b, aLow, bLow);
      && (JustPressed(r, BtnA) <==> aLow && !Pressed(b, BtnA))
      && (JustReleased(r, BtnA) <==> !aLow && Pressed(b, BtnA))
      && (JustPressed(r, BtnB) <==> bLow && !Pressed(b, BtnB))
      && (JustReleased(r, BtnB) <==> !bLow && Pressed(b, BtnB))
  {
  }

  /** Holding a button over two samples yields one press edge, then none. */
  lemma HoldFiresOnce(b: Buttons, aLow: bool, bLow: bool)
    requires !Pressed(b, BtnA)
    ensures var r1 := GetBtn(b, true, bLow);
      var r2 := GetBtn(r1, true, aLow);
      JustPressed(r1, BtnA) && !JustPressed(r2, BtnA) && Pressed(r2, BtnA)
  {
  }

  // ---------------------------------------------------------------------
  // Volume and frame rate

  const MaxVol := 6

  /** The result of a setting change: the new value and whether a change was requested. */
  datatype Setting = Setting(value: int, changed: bool)

  /**
    `setVol`: only while B is held. A fresh B press turns the volume up to
    at most `MaxVol`; otherwise a fresh A press turns it down to at least 0.
   */
  function SetVol(b: Buttons, vol: int): (r: Setting)
    ensures r.changed <==> Pressed(b, BtnB) && (JustPressed(b, BtnB) || JustPressed(b, BtnA))
    ensures !r.changed ==> r.value == vol
    ensures r.changed && JustPressed(b, BtnB) ==> r.value == if vol + 1 < MaxVol then vol + 1 else MaxVol
    ensures r.changed && !JustPressed(b, BtnB) ==> r.value == if vol - 1 > 0 then vol - 1 else 0
    ensures 0 <= vol <= MaxVol ==> 0 <= r.value <= MaxVol && -1 <= r.value - vol <= 1
  {
    if Pressed(b, BtnB) then
      if JustPressed(b, BtnB) then Setting(if vol + 1 < MaxVol then vol + 1 else MaxVol, true)
      else if JustPressed(b, BtnA) then Setting(if vol - 1 > 0 then vol - 1 else 0, true)
      else Setting(vol, false)
    else Setting(vol, false)
  }

  /** Turning the volume up and then down again, below the maximum, returns to the start. */
  lemma VolUpDown(up: Buttons, down: Buttons, vol: int)
    requires 0 <= vol < MaxVol
    requires JustPressed(up, BtnB)
    requires Pressed(down, BtnB) && !JustPressed(down, BtnB) && JustPressed(down, BtnA)
    ensures SetVol(up, vol).value == vol + 1
    ensures SetVol(down, SetVol(up, vol).value).value == vol
  {
  }

  const MinFrameRate := 5
  const MaxFrameRate := 120
  const FrameStep := 5

  /** The frame rates the settings screen can reach. */
  predicate ValidFrameRate(f: int) {
    MinFrameRate <= f <= MaxFrameRate && f % FrameStep == 0
  }

  /**
    `setFrameRate`: a fresh B press steps up by 5, wrapping 120 to 5; else
    a held A steps down by 5, wrapping 5 to 120.
   */
  function SetFrameRate(b: Buttons, rate: int): (r: Setting)
    ensures r.changed <==> JustPressed(b, BtnB) || Pressed(b, BtnA)
    ensures !r.changed ==> r.value == rate
    ensures ValidFrameRate(rate) ==> ValidFrameRate(r.value)
    ensures JustPressed(b, BtnB) ==> r.value == FrameUp(rate)
    ensures !JustPressed(b, BtnB) && Pressed(b, BtnA) ==> r.value == FrameDown(rate)
  {
    if JustPressed(b, BtnB) then Setting(FrameUp(rate), true)
    else if Pressed(b, BtnA) then Setting(FrameDown(rate), true)
    else Setting(rate, false)
  }

  /** One step up of the frame-rate setting. */
  function FrameUp(rate: int): (r: int)
    ensures ValidFrameRate(rate) ==> ValidFrameRate(r)
    ensures rate == MaxFrameRate ==> r == MinFrameRate
  {
    if rate < MaxFrameRate then rate + FrameStep else MinFrameRate
  }

  /** One step down of the frame-rate setting. */
  function FrameDown(rate: int): (r: int)
    ensures ValidFrameRate(rate) ==> ValidFrameRate(r)
    ensures rate == MinFrameRate ==> r == MaxFrameRate
  {
    if rate > MinFrameRate then rate - FrameStep else MaxFrameRate
  }

  /** On the valid rates, a step down undoes a step up and the other way round. */
  lemma FrameStepsInverse(rate: int)
    requires ValidFrameRate(rate)
    ensures FrameDown(FrameUp(rate)) == rate
    ensures FrameUp(FrameDown(rate)) == rate
  {
  }

  /** `n` steps up. */
  function FrameUpTimes(rate: int, n: nat): (r: int)
    ensures ValidFrameRate(rate) ==> ValidFrameRate(r)
  {
    if n == 0 then rate else FrameUp(FrameUpTimes(rate, n - 1))
  }

  /** From a valid rate, `k` steps up below the top land `5 k` higher. */
  lemma {:induction false} FrameUpClimbs(rate: int, k: nat)
    requires ValidFrameRate(rate) && rate + FrameStep * k <= MaxFrameRate
    ensures FrameUpTimes(rate, k) == rate + FrameStep * k
  {
    if k > 0 {
      FrameUpClimbs(rate, k - 1);
    }
  }

  /** The 24 valid rates form one cycle: 24 steps up return to the start. */
  lemma FrameUpCycle(rate: int)
    requires ValidFrameRate(rate)
    ensures FrameUpTimes(rate, 24) == rate
  {
    var k: nat := (MaxFrameRate - rate) / FrameStep;
    FrameUpClimbs(rate, k);
    FrameUpCompose(rate, k, 1);
    assert FrameUpTimes(rate, k + 1) == MinFrameRate;
    FrameUpClimbs(MinFrameRate, 23 - k);
    FrameUpCompose(rate, k + 1, 23 - k);
  }

  lemma {:induction false} FrameUpCompose(rate: int, a: nat, b: nat)
    ensures FrameUpTimes(rate, a + b) == FrameUpTimes(FrameUpTimes(rate, a), b)
  {
    if b > 0 {
      FrameUpCompose(rate, a, b - 1);
    }
  }

  // ---------------------------------------------------------------------
  // Random numbers

  /** 2^20: `getrandbits(20)` draws a value in [0, RandLimit). */
  const RandLimit := 0x10_0000

  /** A value `getrandbits(20)` can return. */
  predicate RandomBits(bits: int) {
    0 <= bits < RandLimit
  }

  /**
    `random(x, y)`: the draw `bits` reduced modulo `y - x + 1` with Python's
    remainder, shifted by `x`. An empty range `y == x - 1` divides by zero.
   */
  function Random(bits: int, x: int, y: int): (r: Result<int>)
    ensures r.Err? <==> y - x + 1 == 0
    ensures r.Err? ==> r.error == ZeroDivision
    ensures r.Ok? && y >= x ==> x <= r.value <= y
    ensures r.Ok? && y < x - 1 ==> y + 1 < r.value <= x
  {
    if y - x + 1 == 0 then Err(ZeroDivision) else Ok(PyMod(bits, y - x + 1) + x)
  }

  /** Every value of a non-empty range of at most 2^20 values is drawn by some 20-bit draw. */
  lemma RandomCoversRange(x: int, y: int, v: int)
    requires x <= v <= y && y - x < RandLimit
    ensures RandomBits(v - x) && Random(v - x, x, y) == Ok(v)
  {
    var d := y - x + 1;
    assert PyMod(v - x, d) == (v - x) % d;
    SmallMod(v - x, d);
    assert RandomBits(v - x);
  }

  /** A value below a positive divisor is its own remainder. */
  lemma SmallMod(a: int, d: int)
    requires 0 <= a < d
    ensures a % d == a
  {
  }

  /** The draw of `random(x, y)` on a non-empty range, as a plain integer. */
  function RandomIn(bits: int, x: int, y: int): (r: int)
    requires x <= y
    ensures x <= r <= y
    ensures Random(bits, x, y) == Ok(r)
  {
    bits % (y - x + 1) + x
  }
}

=== FILE: menu.dfy ===
/**
  The launcher menu: a cyclic cursor over the scripts whose names start
  with a prefix. The directory listing is a parameter.
 */
module Menu {
  import opened Outcomes
  import opened Sequences

  datatype Selector = Selector(options: seq<string>, selection: int)

  predicate StartsWith(name: string, prefix: string) {
    |prefix| <= |name| && name[..|prefix|] == prefix
  }

  /** The names of `listing` that start with `prefix`, in listing order. */
  function Filter(listing: seq<string>, prefix: string): (r: seq<string>)
    ensures |r| <= |listing|
    ensures forall o :: o in r <==> o in listing && StartsWith(o, prefix)
    ensures forall o :: multiset(r)[o] == if StartsWith(o, prefix) then multiset(listing)[o] else 0
  {
    if |listing| == 0 then []
    else
      var rest := Filter(listing[1..], prefix);
      assert forall o :: o in listing <==> o == listing[0] || o in listing[1..];
      assert listing == [listing[0]] + listing[1..];
      if StartsWith(listing[0], prefix) then [listing[0]] + rest else rest
  }

  /** The filtered options keep the listing's order. */
  lemma {:induction false} FilterIsSubsequence(listing: seq<string>, prefix: string)
    ensures SubsequenceOf(Filter(listing, prefix), listing)
  {
    if |listing| > 0 {
      FilterIsSubsequence(listing[1..], prefix);
      var rest := Filter(listing[1..], prefix);
      if !StartsWith(listing[0], prefix) && |rest| > 0 {
        assert rest[0] in rest;
      }
    }
  }

  /** `MenuSelector(prefilter)`: the cursor starts on the first matching name. */
  function Init(listing: seq<string>, prefix: string): (r: Selector)
    ensures r.selection == 0
    ensures r.options == Filter(listing, prefix)
    ensures forall o :: o in r.options <==> o in listing && StartsWith(o, prefix)
  {
    Selector(Filter(listing, prefix), 0)
  }

  /** The cursor points at an option. */
  predicate Valid(m: Selector) {
    0 <= m.selection < |m.options|
  }

  /** `incr`: the next option, wrapping from the last to the first; no options divides by zero. */
  function Incr(m: Selector): (r: Result<Selector>)
    ensures r.Err? <==> |m.options| == 0
    ensures r.Err? ==> r.error == ZeroDivision
    ensures r.Ok? ==> r.value.options == m.options && Valid(r.value)
    ensures r.Ok? && Valid(m) ==>
      r.value.selection == (if m.selection == |m.options| - 1 then 0 else m.selection + 1)
  {
    if |m.options| == 0 then Err(ZeroDivision)
    else Ok(m.(selection := PyMod(m.selection + 1, |m.options|)))
  }

  /** `decr`: the previous option, wrapping from the first to the last; no options divides by zero. */
  function Decr(m: Selector): (r: Result<Selector>)
    ensures r.Err? <==> |m.options| == 0
    ensures r.Err? ==> r.error == ZeroDivision
    ensures r.Ok? ==> r.value.options == m.options && Valid(r.value)
    ensures r.Ok? && Valid(m) ==>
      r.value.selection == (if m.selection == 0 then |m.options| - 1 else m.selection - 1)
  {
    if |m.options| == 0 then Err(ZeroDivision)
    else Ok(m.(selection := PyMod(m.selection - 1, |m.options|)))
  }

  /** On a valid cursor, `decr` undoes `incr` and `incr` undoes `decr`. */
  lemma IncrDecrInverse(m: Selector)
    requires Valid(m)
    ensures Incr(m).Ok? && Decr(Incr(m).value) == Ok(m)
    ensures Decr(m).Ok? && Incr(Decr(m).value) == Ok(m)
  {
  }

  /** `n` presses of the next button. */
  function IncrTimes(m: Selector, n: nat): (r: Selector)
    requires Valid(m)
    ensures Valid(r) && r.options == m.options
  {
    if n == 0 then m else Incr(IncrTimes(m, n - 1)).value
  }

  /** Below the last option, `j` presses move the cursor `j` places forward. */
  lemma {:induction false} IncrClimbs(m: Selector, j: nat)
    requires Valid(m) && m.selection + j < |m.options|
    ensures IncrTimes(m, j).selection == m.selection + j
  {
    if j > 0 {
      IncrClimbs(m, j - 1);
    }
  }

  lemma {:induction false} IncrCompose(m: Selector, a: nat, b: nat)
    requires Valid(m)
    ensures IncrTimes(m, a + b) == IncrTimes(IncrTimes(m, a), b)
  {
    if b > 0 {
      IncrCompose(m, a, b - 1);
    }
  }

  /** From any valid cursor, pressing until past the last option wraps to the first. */
  lemma {:induction false} IncrWraps(m: Selector)
    requires Valid(m)
    ensures IncrTimes(m, |m.options| - m.selection) == Selector(m.options, 0)
  {
    var k := |m.options|;
    var s := m.selection;
    var last := IncrTimes(m, k - 1 - s);
    IncrClimbs(m, k - 1 - s);
    IncrCompose(m, k - 1 - s, 1);
    assert IncrTimes(m, k - s) == Incr(last).value;
  }

  /** As many presses as there are options bring the cursor back. */
  lemma {:induction false} IncrFullCycle(m: Selector)
    requires Valid(m)
    ensures IncrTimes(m, |m.options|) == m
  {
    var k := |m.options|;
    var s := m.selection;
    IncrWraps(m);
    var first := Selector(m.options, 0);
    IncrClimbs(first, s);
    IncrCompose(m, k - s, s);
    assert IncrTimes(m, k) == IncrTimes(first, s);
  }

  /**
    `listoptions`: the options from the cursor on, with Python's slice
    rules for a start outside the list.
   */
  function ListOptions(m: Selector): (r: seq<string>)
    ensures |r| <= |m.options|
    ensures Valid(m) ==> |r| == |m.options| - m.selection && r[0] == m.options[m.selection]
    ensures m.selection >= |m.options| ==> r == []
    ensures -|m.options| <= m.selection < 0 ==> |r| == -m.selection
    ensures m.selection < -|m.options| ==> r == m.options
    ensures forall i :: 0 <= i < |r| ==> r[i] == m.options[|m.options| - |r| + i]
  {
    var n := |m.options|;
    var start := if m.selection < 0 then (if n + m.selection < 0 then 0 else n + m.selection)
                 else if m.selection > n then n else m.selection;
    m.options[start..]
  }

  /** `getselection`: the option under the cursor, with Python's indexing rules. */
  function GetSelection(m: Selector): (r: Result<string>)
    ensures r.Err? <==> !(-|m.options| <= m.selection < |m.options|)
    ensures r.Err? ==> r.error == IndexOutOfRange
    ensures Valid(m) ==> r == Ok(m.options[m.selection])
    ensures -|m.options| <= m.selection < 0 ==> r == Ok(m.options[|m.options| + m.selection])
  {
    var n := |m.options|;
    if 0 <= m.selection < n then Ok(m.options[m.selection])
    else if -n <= m.selection < 0 then Ok(m.options[n + m.selection])
    else Err(IndexOutOfRange)
  }

  /** The listed options start with the selected one, for every cursor the menu can reach. */
  lemma ListStartsAtSelection(m: Selector)
    requires Valid(m)
    ensures GetSelection(m).Ok? && ListOptions(m)[0] == GetSelection(m).value
    ensures |ListOptions(m)| == |m.options| - m.selection
  {
  }

  /**
    A negative cursor counts from the end, for listing and selecting
    alike: the listed options still start with the selection.
   */
  lemma NegativeCursorAgrees(m: Selector)
    requires -|m.options| <= m.selection < 0
    ensures GetSelection(m).Ok? && ListOptions(m)[0] == GetSelection(m).value
    ensures GetSelection(m) == GetSelection(m.(selection := |m.options| + m.selection))
    ensures ListOptions(m) == ListOptions(m.(selection := |m.options| + m.selection))
  {
  }

  /** Every cursor reachable from `Init` by next/previous presses is valid or the menu is empty. */
  lemma InitThenIncrValid(listing: seq<string>, prefix: string)
    ensures var m := Init(listing, prefix);
      (|m.options| == 0 ==> Incr(m).Err? && GetSelection(m).Err? && ListOptions(m) == [])
      && (|m.options| > 0 ==> Valid(m) && Valid(Incr(m).value) && Valid(Decr(m).value))
  {
  }
}

=== FILE: outcomes.dfy ===
/**
  Results of operations that raise in Python, and Python's integer
  division and remainder, which round toward negative infinity.
 */
module Outcomes {

  /** The Python exceptions the modelled code can raise. */
  datatype PyError = ZeroDivision | IndexOutOfRange

  datatype Result<T> = Ok(value: T) | Err(error: PyError) {
    predicate IsOk() {
      Ok?
    }
  }

  /**
    Python's `a % b`: the remainder takes the sign of the divisor. Dafny's
    `%` is Euclidean, so the two agree for positive divisors only.
   */
  function PyMod(a: int, b: int): (r: int)
    requires b != 0
    ensures b > 0 ==> 0 <= r < b
    ensures b < 0 ==> b < r <= 0
    ensures a == PyDiv(a, b) * b + r
  {
    if b > 0 then a % b
    else if a % -b == 0 then 0
    else a % -b + b
  }

  /** Python's `a // b`: the floor of the exact quotient. */
  function PyDiv(a: int, b: int): (q: int)
    requires b != 0
    ensures b > 0 ==> q * b <= a < q * b + b
    ensures b < 0 ==> q * b >= a > q * b + b
  {
    if b > 0 then a / b
    else if a % -b == 0 then -(a / -b)
    else -(a / -b) - 1
  }
}

=== FILE: pong.dfy ===
/**
  The integer rules of Pong: bats driven by buttons or by a simple
  tracker, balls that move in whole pixels, bounce off the top and bottom
  walls and the bats, and score at the side walls, and the random spawning
  of extra balls up to a limit. Button samples and random bits are
  parameters.
 */
module Pong {
  import opened GameEsp

  const Width := 240
  const Height := 135
  const BatWidth := 2
  const BatHeight := 20
  const BatVelocity := 3
  const BallWidth := 4
  const BallVelocity := 2
  const MaxScore := 15
  const MaxBalls := 3
  /** A new ball appears when a draw from [0, 10000] is below this. */
  const BallsChance := 10
  /** How far across a ball may be for the tracker to follow it. */
  const TrackRange := 40

  /** Lowest top edge of a bat: the board height less the bat height. */
  const BatMaxY := Height - BatHeight
  /** Where a ball is put back after a point: `int(WIDTH/2 - BALL_WIDTH/2)`, `int(HEIGHT/2 - BALL_WIDTH/2)`. */
  const CentreX := 118
  const CentreY := 65
  /** Start row of the bats: `int(HEIGHT/2 - bat_HEIGHT/2)`. */
  const BatStartY := 57

  /** How a bat is steered: by the tracker, or by an up and a down button. */
  datatype Control = Tracker | Keys(up: bv8, down: bv8)

  datatype Bat = Bat(rect: Rect, velocity: int, control: Control)

  datatype Ball = Ball(rect: Rect, velocity: int, angle: int)

  /** The players' scores, the bats, the balls in play, and whether someone has won. */
  datatype Game = Game(bats: seq<Bat>, balls: seq<Ball>, scores: seq<int>, gameOver: bool)

  /** A fresh ball in the centre, moving right and level. */
  const NewBall := Ball(Rect(CentreX, CentreY, BallWidth, BallWidth), BallVelocity, 0)

  /**
    `Pong.init`: the left bat is the tracker in demo and one-player games,
    the right bat only in demo games; one ball in the centre; scores 0.
   */
  function Init(onePlayer: bool, demo: bool): (g: Game)
    ensures |g.bats| == 2 && |g.balls| == 1 && g.scores == [0, 0] && !g.gameOver
    ensures (g.bats[0].control == Tracker) <==> demo || onePlayer
    ensures (g.bats[1].control == Tracker) <==> demo
    ensures forall i :: 0 <= i < 2 ==> 0 <= g.bats[i].rect.y <= BatMaxY
    ensures g.bats[0].rect == Rect(0, BatStartY, BatWidth, BatHeight)
    ensures g.bats[1].rect == Rect(Width - BatWidth - 1, BatStartY, BatWidth, BatHeight)
    ensures forall i :: 0 <= i < 2 ==> g.bats[i].velocity == BatVelocity
    ensures forall i :: 0 <= i < 2 && g.bats[i].control != Tracker ==> g.bats[i].control == Keys(BtnB, BtnA)
    ensures g.balls == [NewBall]
  {
    var left := Rect(0, BatStartY, BatWidth, BatHeight);
    var right := Rect(Width - BatWidth - 1, BatStartY, BatWidth, BatHeight);
    var keys := Keys(BtnB, BtnA);
    Game([Bat(left, BatVelocity, if demo || onePlayer then Tracker else keys),
          Bat(right, BatVelocity, if demo then Tracker else keys)],
         [NewBall], [0, 0], false)
  }

  // ---------------------------------------------------------------------
  // Bats

  /** A button-steered bat: up by `velocity` but not above 0, then down by `velocity` but not below `BatMaxY`. */
  function KeyStep(y: int, velocity: int, upHeld: bool, downHeld: bool): (r: int)
    ensures !upHeld && !downHeld ==> r == y
    ensures upHeld && !downHeld ==> r == if y - velocity > 0 then y - velocity else 0
    ensures !upHeld && downHeld ==> r == if y + velocity < BatMaxY then y + velocity else BatMaxY
    ensures upHeld && downHeld ==>
      var up := if y - velocity > 0 then y - velocity else 0;
      r == if up + velocity < BatMaxY then up + velocity else BatMaxY
    ensures velocity >= 0 && 0 <= y <= BatMaxY ==> 0 <= r <= BatMaxY
  {
    var y1 := if upHeld then (if y - velocity > 0 then y - velocity else 0) else y;
    if downHeld then (if y1 + velocity < BatMaxY then y1 + velocity else BatMaxY) else y1
  }

  /**
    Both buttons held: the bat stays put when it is further than one step
    from the top; otherwise it is pushed to the top and comes back one step.
   */
  lemma BothKeysCancel(y: int, velocity: int)
    requires 0 <= velocity <= BatMaxY && 0 <= y <= BatMaxY
    ensures velocity < y ==> KeyStep(y, velocity, true, true) == y
    ensures y <= velocity ==> KeyStep(y, velocity, true, true) == velocity
  {
  }

  /**
    The tracker's scan: the first ball of least horizontal distance among
    those closer than `TrackRange`, or none.
   */
  method Target(balls: seq<Ball>, batX: int) returns (ballY: int, index: int)
    ensures -1 <= index < |balls|
    ensures index == -1 <==> forall j :: 0 <= j < |balls| ==> Dist(balls[j], batX) >= TrackRange
    ensures index == -1 ==> ballY == -1
    ensures index >= 0 ==> ballY == balls[index].rect.y && FirstNearest(balls, batX, index)
  {
    var best := TrackRange;
    ballY := -1;
    index := -1;
    var i := 0;
    while i < |balls|
      invariant 0 <= i <= |balls|
      invariant -1 <= index < i
      invariant index == -1 ==> best == TrackRange && ballY == -1
      invariant index >= 0 ==> best == Dist(balls[index], batX) && ballY == balls[index].rect.y
      invariant best <= TrackRange && (index >= 0 ==> best < TrackRange)
      invariant forall j :: 0 <= j < i ==> Dist(balls[j], batX) >= best
      invariant index >= 0 ==> forall j :: 0 <= j < index ==> Dist(balls[j], batX) > best
    {
      var d := Dist(balls[i], batX);
      if d < best {
        best := d;
        ballY := balls[i].rect.y;
        index := i;
      }
      i := i + 1;
    }
  }

  /**
    Ball `k` is within `TrackRange`, no ball is closer, and every earlier
    ball is farther.
   */
  predicate FirstNearest(balls: seq<Ball>, batX: int, k: int) {
    && 0 <= k < |balls|
    && Dist(balls[k], batX) < TrackRange
    && (forall j :: 0 <= j < |balls| ==> Dist(balls[j], batX) >= Dist(balls[k], batX))
    && (forall j :: 0 <= j < k ==> Dist(balls[j], batX) > Dist(balls[k], batX))
  }

  /** At most one ball is the first nearest. */
  lemma FirstNearestUnique(balls: seq<Ball>, batX: int, k: int, m: int)
    requires FirstNearest(balls, batX, k) && FirstNearest(balls, batX, m)
    ensures k == m
  {
  }

  /** Horizontal distance of a ball from a bat: `abs(ball.x - bat.x)`. */
  function Dist(b: Ball, batX: int): (d: int)
    ensures d >= 0 && (d == b.rect.x - batX || d == batX - b.rect.x)
  {
    if b.rect.x - batX < 0 then batX - b.rect.x else b.rect.x - batX
  }

  /** The tracker's move: one pixel toward a target row that is not negative. */
  function TrackStep(y: int, ballY: int): (r: int)
    ensures -1 <= r - y <= 1
    ensures ballY < 0 || ballY == y ==> r == y
    ensures ballY >= 0 && ballY < y ==> r == y - 1
    ensures ballY >= 0 && ballY > y ==> r == y + 1
  {
    if ballY >= 0 then
      var diffY := ballY - y;
      if diffY < 0 then y - 1 else if diffY > 0 then y + 1 else y
    else y
  }

  /** Repeated tracker steps toward a fixed row never pass it. */
  lemma TrackNeverOvershoots(y: int, ballY: int)
    requires ballY >= 0
    ensures var r := TrackStep(y, ballY);
      (y <= ballY ==> y <= r <= ballY) && (y >= ballY ==> ballY <= r <= y)
  {
  }

  /** `bat.move_bat` for a sample `btns` of the buttons. */
  method MoveBat(bat: Bat, balls: seq<Ball>, btns: Buttons) returns (r: Bat)
    ensures r.rect == bat.rect.(y := r.rect.y) && r.velocity == bat.velocity && r.control == bat.control
    ensures bat.control.Keys? ==>
      r.rect.y == KeyStep(bat.rect.y, bat.velocity, Pressed(btns, bat.control.up), Pressed(btns, bat.control.down))
    ensures bat.control.Keys? && bat.velocity >= 0 && 0 <= bat.rect.y <= BatMaxY ==> 0 <= r.rect.y <= BatMaxY
    ensures bat.control == Tracker ==> -1 <= r.rect.y - bat.rect.y <= 1
    ensures bat.control == Tracker && (forall j :: 0 <= j < |balls| ==> Dist(balls[j], bat.rect.x) >= TrackRange)
      ==> r == bat
    ensures bat.control == Tracker && !(forall j :: 0 <= j < |balls| ==> Dist(balls[j], bat.rect.x) >= TrackRange)
      ==> exists k :: FirstNearest(balls, bat.rect.x, k) && r.rect.y == TrackStep(bat.rect.y, balls[k].rect.y)
  {
    match bat.control
    case Tracker =>
      var ballY, index := Target(balls, bat.rect.x);
      r := bat.(rect := bat.rect.(y := TrackStep(bat.rect.y, ballY)));
    case Keys(up, down) =>
      r := bat.(rect := bat.rect.(y := KeyStep(bat.rect.y, bat.velocity, Pressed(btns, up), Pressed(btns, down))));
  }

  // ---------------------------------------------------------------------
  // Balls

  /** `Ball.move_ball`: across by the velocity, down by the angle. */
  function MoveBall(b: Ball): (r: Ball)
    ensures r.rect == Move(b.rect, b.velocity, b.angle)
    ensures r.velocity == b.velocity && r.angle == b.angle
  {
    b.(rect := Move(b.rect, b.velocity, b.angle))
  }

  /** A ball moves back to where it was by running it with velocity and angle negated. */
  lemma MoveBallReversible(b: Ball)
    ensures var back := MoveBall(MoveBall(b).(velocity := -b.velocity, angle := -b.angle));
      back.rect == b.rect
  {
    MoveInverse(b.rect, b.velocity, b.angle);
  }

  /** The angle a ball takes after a bat hit or a point: `random(0, 3) - 2`. */
  function NewAngle(bits: int): (a: int)
    ensures -2 <= a <= 1
  {
    RandomIn(bits, 0, 3) - 2
  }

  /** Every angle in [-2, 1] can come out of the draw. */
  lemma NewAngleCovers(a: int)
    requires -2 <= a <= 1
    ensures RandomBits(a + 2) && NewAngle(a + 2) == a
  {
  }

  /**
    `Pong.score(player, ball)`: the player gains a point; the ball leaves
    play if others remain, else it is put back in the centre heading the
    other way with a fresh angle. Reaching `MaxScore` ends the game.
   */
  function Score(g: Game, player: int, i: int, bits: int): (r: Game)
    requires |g.scores| == 2 && (player == 0 || player == 1) && 0 <= i < |g.balls|
    ensures |r.scores| == 2
    ensures r.scores[player] == g.scores[player] + 1 && r.scores[1 - player] == g.scores[1 - player]
    ensures r.gameOver <==> g.gameOver || r.scores[player] >= MaxScore
    ensures r.bats == g.bats
    ensures |g.balls| > 1 ==> r.balls == g.balls[..i] + g.balls[i + 1..]
    ensures |g.balls| == 1 ==>
      && |r.balls| == 1
      && r.balls[0].velocity == -g.balls[0].velocity
      && r.balls[0].rect == g.balls[0].rect.(x := CentreX, y := CentreY)
      && -2 <= r.balls[0].angle <= 1
    ensures |r.balls| >= 1
  {
    var scores := g.scores[player := g.scores[player] + 1];
    var balls :=
      if |g.balls| > 1 then g.balls[..i] + g.balls[i + 1..]
      else
        var b := g.balls[i];
        [Ball(b.rect.(x := CentreX, y := CentreY), -b.velocity, NewAngle(bits))];
    Game(g.bats, balls, scores, g.gameOver || scores[player] >= MaxScore)
  }

  /** The ball is past the bottom or the top wall. */
  predicate PastTopOrBottom(b: Ball) {
    b.rect.y > Height - BallWidth || b.rect.y < 0
  }

  /**
    `check_ball_hits_wall` for ball `i`: a point for the player on the far
    side when it leaves at the left or the right; otherwise its angle flips
    when it is past the top or the bottom.
   */
  function HitWall(g: Game, i: int, bits: int): (r: Game)
    requires |g.scores| == 2 && 0 <= i < |g.balls|
    ensures g.balls[i].rect.x < 0 ==> r == Score(g, 1, i, bits)
    ensures g.balls[i].rect.x > Width ==> r == Score(g, 0, i, bits)
    ensures 0 <= g.balls[i].rect.x <= Width ==>
      && r.scores == g.scores && r.gameOver == g.gameOver && r.bats == g.bats
      && r.balls == g.balls[i := g.balls[i].(angle := if PastTopOrBottom(g.balls[i]) then -g.balls[i].angle else g.balls[i].angle)]
    ensures 1 <= |r.balls| <= |g.balls|
  {
    var b := g.balls[i];
    if b.rect.x < 0 then Score(g, 1, i, bits)
    else if b.rect.x > Width then Score(g, 0, i, bits)
    else if PastTopOrBottom(b) then g.(balls := g.balls[i := b.(angle := -b.angle)])
    else g
  }

  /** Whether a ball touches any bat. */
  function HitsAny(ball: Rect, bats: seq<Bat>): (r: bool)
    ensures r <==> exists k :: 0 <= k < |bats| && Colliderect(ball, bats[k].rect)
  {
    if |bats| == 0 then false
    else
      assert forall k :: 1 <= k < |bats| ==> bats[k] == bats[1..][k - 1];
      Colliderect(ball, bats[0].rect) || HitsAny(ball, bats[1..])
  }

  /**
    `check_ball_hits_bat` for one ball: on touching a bat it turns back
    with a fresh angle, once even if it touches both bats.
   */
  function HitBat(b: Ball, bats: seq<Bat>, bits: int): (r: Ball)
    ensures r.rect == b.rect
    ensures HitsAny(b.rect, bats) ==> r.velocity == -b.velocity && -2 <= r.angle <= 1
    ensures !HitsAny(b.rect, bats) ==> r == b
  {
    if HitsAny(b.rect, bats) then b.(velocity := -b.velocity, angle := NewAngle(bits)) else b
  }

  /** The ball's speed is never changed by a bat, only its direction. */
  lemma HitBatKeepsSpeed(b: Ball, bats: seq<Bat>, bits: int)
    ensures var r := HitBat(b, bats, bits);
      r.velocity == b.velocity || r.velocity == -b.velocity
  {
  }

  /** The extra-ball rule of the game loop: while play goes on and fewer than `MaxBalls` are in play, a rare draw adds one. */
  function MaybeSpawn(g: Game, bits: int): (r: Game)
    ensures r.scores == g.scores && r.bats == g.bats && r.gameOver == g.gameOver
    ensures |g.balls| <= MaxBalls ==> |r.balls| <= MaxBalls
    ensures |r.balls| == |g.balls| || (|r.balls| == |g.balls| + 1 && r.balls[|g.balls|] == NewBall && !g.gameOver)
    ensures r.balls[..|g.balls|] == g.balls
  {
    if !g.gameOver && |g.balls| < MaxBalls && RandomIn(bits, 0, 10000) < BallsChance
    then g.(balls := g.balls + [NewBall])
    else g
  }

  /** Between one and `MaxBalls` balls are in play at every step of a game. */
  predicate BallCountOk(g: Game) {
    1 <= |g.balls| <= MaxBalls && |g.scores| == 2
  }

  /** A game starts, and every rule keeps, the ball count between 1 and `MaxBalls`. */
  lemma BallCountKept(g: Game, i: int, bits: int, bats: seq<Bat>)
    requires BallCountOk(g) && 0 <= i < |g.balls|
    ensures BallCountOk(Init(true, false)) && BallCountOk(Init(false, false)) && BallCountOk(Init(false, true))
    ensures BallCountOk(HitWall(g, i, bits))
    ensures BallCountOk(MaybeSpawn(g, bits))
    ensures BallCountOk(g.(balls := g.balls[i := HitBat(g.balls[i], bats, bits)]))
    ensures BallCountOk(g.(balls := g.balls[i := MoveBall(g.balls[i])]))
  {
  }

  /** Once over, a game stays over under every rule. */
  lemma GameOverSticks(g: Game, i: int, bits: int)
    requires BallCountOk(g) && 0 <= i < |g.balls| && g.gameOver
    ensures HitWall(g, i, bits).gameOver && MaybeSpawn(g, bits) == g
  {
  }
}

=== FILE: sequences.dfy ===
/**
  The subsequence relation on sequences: the elements of one appear in the
  other in the same order, possibly with others between them.
 */
module Sequences {

  /** `sub` is obtained from `s` by deleting elements, keeping the order of the rest. */
  ghost predicate SubsequenceOf<T>(sub: seq<T>, s: seq<T>)
    decreases |s|
  {
    if |sub| == 0 then true
    else if |s| == 0 then false
    else if sub[0] == s[0] then SubsequenceOf(sub[1..], s[1..])
    else SubsequenceOf(sub, s[1..])
  }

  /** Dropping the first element of a subsequence keeps it a subsequence. */
  lemma {:induction false} SubsequenceTail<T>(sub: seq<T>, s: seq<T>)
    requires |sub| > 0 && SubsequenceOf(sub, s)
    ensures SubsequenceOf(sub[1..], s)
    decreases |s|, 0
  {
    if sub[0] == s[0] {
      SubsequencePrepend(s[0], sub[1..], s[1..]);
    } else {
      SubsequenceTail(sub, s[1..]);
      SubsequencePrepend(s[0], sub[1..], s[1..]);
    }
    assert [s[0]] + s[1..] == s;
  }

  /** A subsequence of `s` is a subsequence of `s` with one more element in front. */
  lemma {:induction false} SubsequencePrepend<T>(x: T, sub: seq<T>, s: seq<T>)
    requires SubsequenceOf(sub, s)
    ensures SubsequenceOf(sub, [x] + s)
    decreases |s|, 1
  {
    assert ([x] + s)[1..] == s;
    if |sub| > 0 && sub[0] == x {
      SubsequenceTail(sub, s);
    }
  }
}

=== FILE: tetris_blocks.dfy ===
/**
  The tetromino catalogue of the falling-block game: seven kinds, each with
  four rotation tables of four cell offsets, a number of meaningful
  rotations (1, 2 or 4) and a colour index (1 to 7, 0 being the empty cell).
  Kinds with fewer than four meaningful rotations pad their table with
  degenerate all-(0,0) rotations that are never selected.
 */
module TetrisBlocks {

  /** One cell of a piece, relative to the piece's pivot. */
  datatype Offset = Offset(dx: int, dy: int)

  /** A piece kind: `square[rot][i]` is the i-th cell of rotation `rot`. */
  datatype Block = Block(square: seq<seq<Offset>>, numRotate: int, color: int)

  const KindCount := 7

  /** The padding rotation of kinds with fewer than four orientations. */
  const Flat: seq<Offset> := [Offset(0, 0), Offset(0, 0), Offset(0, 0), Offset(0, 0)]

  const Blocks: seq<Block> := [
    // straight, cyan
    Block([[Offset(-1, 0), Offset(0, 0), Offset(1, 0), Offset(2, 0)],
           [Offset(0, -1), Offset(0, 0), Offset(0, 1), Offset(0, 2)],
           Flat, Flat], 2, 1),
    // square, yellow
    Block([[Offset(0, -1), Offset(1, -1), Offset(0, 0), Offset(1, 0)],
           Flat, Flat, Flat], 1, 2),
    // red
    Block([[Offset(-1, -1), Offset(-1, 0), Offset(0, 0), Offset(1, 0)],
           [Offset(-1, 1), Offset(0, 1), Offset(0, 0), Offset(0, -1)],
           [Offset(-1, 0), Offset(0, 0), Offset(1, 0), Offset(1, 1)],
           [Offset(1, -1), Offset(0, -1), Offset(0, 0), Offset(0, 1)]], 4, 3),
    // skew, green
    Block([[Offset(-1, 0), Offset(0, 0), Offset(0, 1), Offset(1, 1)],
           [Offset(0, -1), Offset(0, 0), Offset(-1, 0), Offset(-1, 1)],
           Flat, Flat], 2, 4),
    // blue
    Block([[Offset(-1, 0), Offset(0, 0), Offset(1, 0), Offset(1, -1)],
           [Offset(-1, -1), Offset(0, -1), Offset(0, 0), Offset(0, 1)],
           [Offset(-1, 1), Offset(-1, 0), Offset(0, 0), Offset(1, 0)],
           [Offset(0, -1), Offset(0, 0), Offset(0, 1), Offset(1, 1)]], 4, 5),
    // orange
    Block([[Offset(-1, 1), Offset(0, 1), Offset(0, 0), Offset(1, 0)],
           [Offset(0, -1), Offset(0, 0), Offset(1, 0), Offset(1, 1)],
           Flat, Flat], 2, 6),
    // purple
    Block([[Offset(-1, 0), Offset(0, 0), Offset(1, 0), Offset(0, -1)],
           [Offset(0, -1), Offset(0, 0), Offset(0, 1), Offset(-1, 0)],
           [Offset(-1, 0), Offset(0, 0), Offset(1, 0), Offset(0, 1)],
           [Offset(0, -1), Offset(0, 0), Offset(0, 1), Offset(1, 0)]], 4, 7)
  ]

  /** Every offset of the catalogue lies in [-1, 2] on both axes. */
  predicate Near(o: Offset) {
    -1 <= o.dx <= 2 && -1 <= o.dy <= 2
  }

  /** A rotation table row: four offsets, all near the pivot. */
  predicate NearRow(row: seq<Offset>) {
    |row| == 4 && forall i :: 0 <= i < 4 ==> Near(row[i])
  }

  /** Four pairwise distinct cells: an actual tetromino rather than a padding row. */
  predicate Tetromino(row: seq<Offset>) {
    |row| == 4 && forall i, j :: 0 <= i < j < 4 ==> row[i] != row[j]
  }

  /** The shape every catalogue entry has. */
  predicate Shaped(b: Block) {
    && |b.square| == 4
    && (forall r :: 0 <= r < 4 ==> NearRow(b.square[r]))
    && (b.numRotate == 1 || b.numRotate == 2 || b.numRotate == 4)
    && 1 <= b.color <= 7
  }

  /** The rotations below `numRotate` are real tetrominoes. */
  predicate RealRotations(b: Block)
    requires Shaped(b)
  {
    forall r :: 0 <= r < b.numRotate ==> Tetromino(b.square[r])
  }

  lemma NearRowOf(row: seq<Offset>)
    requires |row| == 4 && Near(row[0]) && Near(row[1]) && Near(row[2]) && Near(row[3])
    ensures NearRow(row)
  {
    forall i | 0 <= i < 4
      ensures Near(row[i])
    {
      if i == 0 {} else if i == 1 {} else if i == 2 {} else {}
    }
  }

  lemma ShapedOf(b: Block)
    requires |b.square| == 4
    requires NearRow(b.square[0]) && NearRow(b.square[1]) && NearRow(b.square[2]) && NearRow(b.square[3])
    requires (b.numRotate == 1 || b.numRotate == 2 || b.numRotate == 4) && 1 <= b.color <= 7
    requires forall r :: 0 <= r < b.numRotate && r < 4 ==> Tetromino(b.square[r])
    ensures Shaped(b) && RealRotations(b)
  {
    forall r | 0 <= r < 4
      ensures NearRow(b.square[r])
    {
      if r == 0 {} else if r == 1 {} else if r == 2 {} else {}
    }
  }

  lemma BlockShape(b: Block)
    requires |b.square| == 4 && (b.numRotate == 1 || b.numRotate == 2 || b.numRotate == 4) && 1 <= b.color <= 7
    requires forall r :: 0 <= r < 4 ==> |b.square[r]| == 4
    requires forall r :: 0 <= r < 4 ==>
      Near(b.square[r][0]) && Near(b.square[r][1]) && Near(b.square[r][2]) && Near(b.square[r][3])
    requires forall r :: 0 <= r < b.numRotate && r < 4 ==> Tetromino(b.square[r])
    ensures Shaped(b) && RealRotations(b)
  {
    NearRowOf(b.square[0]);
    NearRowOf(b.square[1]);
    NearRowOf(b.square[2]);
    NearRowOf(b.square[3]);
    ShapedOf(b);
  }

  lemma CatalogueShape(k: int)
    requires 0 <= k < KindCount
    ensures |Blocks| == KindCount
    ensures Shaped(Blocks[k]) && RealRotations(Blocks[k])
    ensures Blocks[k].color == k + 1
  {
    var b := Blocks[k];
    assert Tetromino(b.square[0]);
    if b.numRotate >= 2 {
      assert Tetromino(b.square[1]);
    }
    if b.numRotate == 4 {
      assert Tetromino(b.square[2]) && Tetromino(b.square[3]);
    }
    forall r | 0 <= r < b.numRotate && r < 4
      ensures Tetromino(b.square[r])
    {
      if r == 0 {} else if r == 1 {} else if r == 2 {} else {}
    }
    BlockShape(b);
  }

  /** Every block of the catalogue, whichever index it sits at. */
  lemma CatalogueMember(b: Block)
    requires b in Blocks
    ensures Shaped(b) && RealRotations(b)
  {
    var k :| 0 <= k < |Blocks| && Blocks[k] == b;
    CatalogueShape(k);
  }

  /** The counter-clockwise step of the rotation index: `(rot + n - 1) % n`. */
  function CcwRot(rot: int, numRotate: int): (r: int)
    requires 0 < numRotate
    ensures 0 <= r < numRotate
    ensures rot == 0 ==> r == numRotate - 1
    ensures 0 < rot <= numRotate ==> r == rot - 1
  {
    (rot + numRotate - 1) % numRotate
  }

  /** `steps` counter-clockwise turns from `rot`. */
  function CcwSteps(rot: int, numRotate: int, steps: nat): (r: int)
    requires 0 < numRotate && 0 <= rot < numRotate
    ensures 0 <= r < numRotate
  {
    if steps == 0 then rot else CcwRot(CcwSteps(rot, numRotate, steps - 1), numRotate)
  }

  lemma {:induction false} CcwDescends(rot: int, numRotate: int, steps: nat)
    requires 0 < numRotate && 0 <= rot < numRotate
    requires steps <= rot
    ensures CcwSteps(rot, numRotate, steps) == rot - steps
  {
    if steps > 0 {
      CcwDescends(rot, numRotate, steps - 1);
    }
  }

  lemma {:induction false} CcwCompose(rot: int, numRotate: int, a: nat, b: nat)
    requires 0 < numRotate && 0 <= rot < numRotate
    ensures CcwSteps(rot, numRotate, a + b) == CcwSteps(CcwSteps(rot, numRotate, a), numRotate, b)
  {
    if b > 0 {
      CcwCompose(rot, numRotate, a, b - 1);
    }
  }

  /** Turning counter-clockwise `numRotate` times from any rotation comes back to it. */
  lemma CcwFullTurn(rot: int, numRotate: int)
    requires 0 < numRotate && 0 <= rot < numRotate
    ensures CcwSteps(rot, numRotate, numRotate) == rot
  {
    CcwDescends(rot, numRotate, rot);
    CcwCompose(rot, numRotate, rot, 1);
    CcwCompose(rot, numRotate, rot + 1, numRotate - 1 - rot);
    CcwDescends(numRotate - 1, numRotate, numRotate - 1 - rot);
  }
}

=== FILE: tetris_game.dfy ===
/**
  The tick engine of the falling-block game. One call of `Loop` is one pass
  of the main loop: either a game-over tick (colour cycling, countdown,
  reset), or key sampling, a move proposal and its commit or lock. Button
  levels and the random draws of a spawn are parameters; drawing, sleeping
  and frame pacing are not modelled.

  The falling piece lives inside the screen: each tick its cells are
  cleared, the proposed placement is checked against the rest of the
  screen, and the piece is written back, moved or not.
 */
module Tetris {
  import opened TetrisBlocks
  import opened TetrisScreen
  import opened TetrisLines

  /** Gravity moves the piece down once every `FallPeriod` ticks. */
  const FallPeriod := 10
  /** Ticks of the game-over screen before the automatic reset. */
  const GameOverTicks := 10
  /** Ticks added to the game-over countdown by holding the right button. */
  const LingerTicks := 1000
  const SpawnRow := 1
  const SpawnMinX := 1
  const SpawnMaxX := 7

  /** Pin levels of one tick; `true` when the pin reads low, i.e. the button is held. */
  datatype Pins = Pins(leftLow: bool, rightLow: bool, bLow: bool)

  /** The pending intents `but_LEFT`, `but_RIGHT`, `but_A` (rotate) and `but_B`. */
  datatype Keys = Keys(left: bool, right: bool, a: bool, b: bool)

  /** The edge latches `pom` .. `pom4` of the four intents (0 or 1 in the source). */
  datatype Latches = Latches(left: bool, right: bool, drop: bool, rotate: bool)

  /** The three `random.randint` draws of one spawn: column, kind, rotation. */
  datatype Spawn = Spawn(x: int, kind: int, rot: int)

  datatype Game = Game(
    screen: Screen,
    pos: Point,
    block: Block,
    rot: int,
    fallCnt: int,
    gameOver: int,
    keys: Keys,
    latches: Latches,
    turbo: bool,
    score: int,
    lvl: int,
    gameSpeed: int)

  /** What `randint(1, 7)`, `randint(0, 6)` and `randint(0, numRotate - 1)` can return. */
  predicate ValidSpawn(sp: Spawn) {
    && SpawnMinX <= sp.x <= SpawnMaxX
    && 0 <= sp.kind < |Blocks|
    && 0 <= sp.rot < Blocks[sp.kind].numRotate
  }

  /** The cells of the falling piece. */
  function PieceCells(g: Game): seq<Point>
    requires Shaped(g.block) && 0 <= g.rot < 4
  {
    Squares(g.block, g.pos, g.rot)
  }

  /** What a tick of play needs: a sized screen, a catalogue-shaped piece on it. */
  predicate Playable(g: Game) {
    && Dims(g.screen)
    && Shaped(g.block)
    && 0 <= g.rot < 4
    && AllInBounds(PieceCells(g))
    && g.score >= 0
  }

  /**
    The invariant of the engine. During play the piece's cells either all
    hold its colour (it is drawn) or are all empty (it was just spawned and
    not yet drawn).
   */
  predicate Inv(g: Game) {
    && WellFormed(g.screen)
    && g.block in Blocks
    && Playable(g)
    && 0 <= g.rot < g.block.numRotate
    && 0 <= g.fallCnt < FallPeriod
    && 0 <= g.lvl <= MaxLevel
    && 0 <= g.gameSpeed <= GameSpeedInit
    && (g.gameOver <= 0 ==>
          Holds(g.screen, PieceCells(g), g.block.color) || Holds(g.screen, PieceCells(g), 0))
  }

  /**
    Every spawn lies on the grid: columns 1 to 7 and row 1, widened by
    offsets in [-1, 2], stay inside 10 x 20.
   */
  lemma SpawnInBounds(sp: Spawn)
    requires ValidSpawn(sp)
    ensures Shaped(Blocks[sp.kind])
    ensures AllInBounds(Squares(Blocks[sp.kind], Point(sp.x, SpawnRow), sp.rot))
  {
    CatalogueShape(sp.kind);
    var b := Blocks[sp.kind];
    assert NearRow(b.square[sp.rot]);
  }

  /** `PutStartPos`: a fresh piece at the top, turbo off. */
  function PutStartPos(g: Game, sp: Spawn): (r: Game)
    requires ValidSpawn(sp)
    ensures r.pos == Point(sp.x, SpawnRow) && r.block == Blocks[sp.kind] && r.rot == sp.rot
    ensures r.block in Blocks && Shaped(r.block)
    ensures r.pos.y == SpawnRow && SpawnMinX <= r.pos.x <= SpawnMaxX
    ensures 0 <= r.rot < r.block.numRotate
    ensures AllInBounds(PieceCells(r))
    ensures !r.turbo
    ensures r.screen == g.screen && r.score == g.score && r.gameOver == g.gameOver
    ensures r.lvl == g.lvl && r.gameSpeed == g.gameSpeed && r.fallCnt == g.fallCnt
    ensures r.keys == g.keys && r.latches == g.latches
  {
    SpawnInBounds(sp);
    g.(pos := Point(sp.x, SpawnRow), turbo := false, block := Blocks[sp.kind], rot := sp.rot)
  }

  /**
    `KeyPadLoop`: at most one new intent per tick, chosen by priority
    left-only, right-only, B, both; each latch makes a held button fire on
    every other tick. A new intent replaces all pending ones.
   */
  function KeyPadLoop(keys: Keys, lat: Latches, p: Pins): (r: (Keys, Latches, bool))
    ensures r.2 ==> r.0 in {Keys(true, false, false, false), Keys(false, true, false, false),
                            Keys(false, false, true, false), Keys(false, false, false, true)}
    ensures !r.2 ==> r.0 == keys
    ensures r.2 && r.0.left ==> p.leftLow && !p.rightLow && !lat.left
    ensures r.2 && r.0.right ==> !p.leftLow && p.rightLow && !lat.right
    ensures r.2 && r.0.b ==> p.bLow && !lat.drop
    ensures r.2 && r.0.a ==> p.leftLow && p.rightLow && !lat.rotate
    ensures p.leftLow && !p.rightLow && !lat.left ==> r.2 && r.0.left
    ensures !p.leftLow && p.rightLow && !lat.right ==> r.2 && r.0.right
    ensures (&& !(p.leftLow && !p.rightLow && !lat.left)
             && !(!p.leftLow && p.rightLow && !lat.right)
             && p.bLow && !lat.drop) ==> r.2 && r.0.b
    ensures p.leftLow && p.rightLow && !lat.rotate && !(p.bLow && !lat.drop) ==> r.2 && r.0.a
    ensures !p.leftLow && !p.rightLow && !p.bLow ==> !r.2 && r.1 == lat
    ensures r.2 && r.0.left ==> r.1 == lat.(left := true)
    ensures r.2 && r.0.right ==> r.1 == lat.(right := true)
    ensures r.2 && r.0.b ==>
      r.1 == Latches(lat.left && !(p.leftLow && !p.rightLow), lat.right && !(!p.leftLow && p.rightLow), true, lat.rotate)
    ensures r.2 && r.0.a ==> r.1 == Latches(lat.left, lat.right, lat.drop && !p.bLow, true)
    ensures !r.2 ==>
      r.1 == Latches(lat.left && !(p.leftLow && !p.rightLow), lat.right && !(!p.leftLow && p.rightLow),
                     lat.drop && !p.bLow, lat.rotate && !(p.leftLow && p.rightLow))
  {
    var leftOnly := p.leftLow && !p.rightLow;
    var rightOnly := !p.leftLow && p.rightLow;
    var both := p.leftLow && p.rightLow;
    if leftOnly && !lat.left then (Keys(true, false, false, false), lat.(left := true), true)
    else
      var lat1 := if leftOnly then lat.(left := false) else lat;
      if rightOnly && !lat1.right then (Keys(false, true, false, false), lat1.(right := true), true)
      else
        var lat2 := if rightOnly then lat1.(right := false) else lat1;
        if p.bLow && !lat2.drop then (Keys(false, false, false, true), lat2.(drop := true), true)
        else
          var lat3 := if p.bLow then lat2.(drop := false) else lat2;
          if both && !lat3.rotate then (Keys(false, false, true, false), lat3.(rotate := true), true)
          else
            var lat4 := if both then lat3.(rotate := false) else lat3;
            (keys, lat4, false)
  }

  /** Holding only the left button yields a left intent on every other tick. */
  lemma HeldLeftRepeats(keys: Keys, lat: Latches)
    requires !lat.left
    ensures var p := Pins(true, false, false);
      var t1 := KeyPadLoop(keys, lat, p);
      var t2 := KeyPadLoop(t1.0, t1.1, p);
      var t3 := KeyPadLoop(t2.0, t2.1, p);
      && t1.2 && t1.0.left
      && !t2.2 && t2.0 == t1.0
      && t3.2 && t3.0.left
  {
  }

  /** Holding only B yields a drop intent on every other tick. */
  lemma HeldDropRepeats(keys: Keys, lat: Latches)
    requires !lat.drop
    ensures var p := Pins(false, false, true);
      var t1 := KeyPadLoop(keys, lat, p);
      var t2 := KeyPadLoop(t1.0, t1.1, p);
      var t3 := KeyPadLoop(t2.0, t2.1, p);
      && t1.2 && t1.0.b
      && !t2.2 && t2.0 == t1.0
      && t3.2 && t3.0.b
  {
  }

  /** The move proposed for this tick, and the game with its counters updated. */
  datatype Proposal = Proposal(pos: Point, rot: int, game: Game)

  /**
    `GetNextPosRot`: advances the fall counter; proposes one row down when
    it wraps to 0 or turbo is on, and otherwise at most one pending intent,
    left before right before rotate, clearing only the intent it consumed.
    Turbo becomes the level of the B button.
   */
  function GetNextPosRot(g: Game, bLow: bool): (r: Proposal)
    requires 0 < g.block.numRotate
    ensures 0 <= r.game.fallCnt < FallPeriod
    ensures r.game.fallCnt == (g.fallCnt + 1) % FallPeriod
    ensures r.game.turbo == bLow
    ensures r.game == g.(fallCnt := r.game.fallCnt, keys := r.game.keys, turbo := bLow)
    ensures var drop := r.game.fallCnt == 0 || g.turbo;
      && (drop ==> r.pos == Point(g.pos.x, g.pos.y + 1) && r.rot == g.rot && r.game.keys == g.keys)
      && (!drop && g.keys.left ==>
            r.pos == Point(g.pos.x - 1, g.pos.y) && r.rot == g.rot && r.game.keys == g.keys.(left := false))
      && (!drop && !g.keys.left && g.keys.right ==>
            r.pos == Point(g.pos.x + 1, g.pos.y) && r.rot == g.rot && r.game.keys == g.keys.(right := false))
      && (!drop && !g.keys.left && !g.keys.right && g.keys.a ==>
            r.pos == g.pos && r.rot == CcwRot(g.rot, g.block.numRotate) && r.game.keys == g.keys.(a := false))
      && (!drop && !g.keys.left && !g.keys.right && !g.keys.a ==>
            r.pos == g.pos && r.rot == g.rot && r.game.keys == g.keys)
    ensures 0 <= g.rot < g.block.numRotate ==> 0 <= r.rot < g.block.numRotate
  {
    var fall := (g.fallCnt + 1) % FallPeriod;
    var g1 := g.(fallCnt := fall, turbo := bLow);
    if fall == 0 || g.turbo then
      Proposal(Point(g.pos.x, g.pos.y + 1), g.rot, g1)
    else if g.keys.left then
      Proposal(Point(g.pos.x - 1, g.pos.y), g.rot, g1.(keys := g.keys.(left := false)))
    else if g.keys.right then
      Proposal(Point(g.pos.x + 1, g.pos.y), g.rot, g1.(keys := g.keys.(right := false)))
    else if g.keys.a then
      Proposal(g.pos, (g.rot + g.block.numRotate - 1) % g.block.numRotate, g1.(keys := g.keys.(a := false)))
    else
      Proposal(g.pos, g.rot, g1)
  }

  /** A proposal changes at most one of column, row and rotation, each by one step. */
  lemma ProposalIsOneStep(g: Game, bLow: bool)
    requires 0 < g.block.numRotate && 0 <= g.rot < g.block.numRotate
    ensures var r := GetNextPosRot(g, bLow);
      || (r.pos == Point(g.pos.x, g.pos.y + 1) && r.rot == g.rot)
      || (r.pos == Point(g.pos.x - 1, g.pos.y) && r.rot == g.rot)
      || (r.pos == Point(g.pos.x + 1, g.pos.y) && r.rot == g.rot)
      || (r.pos == g.pos && r.rot == CcwRot(g.rot, g.block.numRotate))
      || (r.pos == g.pos && r.rot == g.rot)
  {
  }

  /**
    `ReviseScreen`: lifts the piece, tries the proposal on the rest of the
    screen and commits it when every cell is free. Otherwise the piece is
    put back; if the rejected move was the downward one the piece locks:
    full rows are removed and a new piece spawns, and if that piece does not
    fit it is written anyway and the game is over.
   */
  function ReviseScreen(g: Game, nextPos: Point, nextRot: int, sp: Spawn): (r: Game)
    requires Playable(g) && 0 <= nextRot < 4 && ValidSpawn(sp)
    ensures Dims(r.screen)
    ensures r.fallCnt == g.fallCnt && r.keys == g.keys && r.latches == g.latches
    ensures r.gameOver == g.gameOver || r.gameOver == GameOverTicks
    ensures r.score >= g.score
  {
    var held := PieceCells(g);
    var lifted := Paint(g.screen, held, 0);
    var (movable, next) := GetSquares(lifted, g.block, nextPos, nextRot);
    if movable then
      g.(screen := Paint(lifted, next, g.block.color), pos := nextPos, rot := nextRot)
    else
      var relocked := Paint(lifted, held, g.block.color);
      if nextPos.y == g.pos.y + 1 then
        var d := DeleteLine(relocked, g.score, g.lvl, g.gameSpeed);
        var g1 := PutStartPos(g.(screen := d.screen, score := d.score, lvl := d.lvl, gameSpeed := d.speed), sp);
        var (fits, spawned) := GetSquares(g1.screen, g1.block, g1.pos, g1.rot);
        if fits then g1
        else g1.(screen := Paint(g1.screen, spawned, g1.block.color), gameOver := GameOverTicks)
      else
        g.(screen := relocked)
  }

  /**
    A proposal whose cells are free once the piece is lifted is committed:
    the piece's old cells are emptied, its new cells take its colour, and
    only the screen, position and rotation change.
   */
  lemma ReviseCommits(g: Game, nextPos: Point, nextRot: int, sp: Spawn)
    requires Playable(g) && 0 <= nextRot < 4 && ValidSpawn(sp)
    requires Fits(Paint(g.screen, PieceCells(g), 0), Squares(g.block, nextPos, nextRot))
    ensures var r := ReviseScreen(g, nextPos, nextRot, sp);
      && r == g.(screen := r.screen, pos := nextPos, rot := nextRot)
      && forall x, y {:trigger r.screen[x][y]} :: 0 <= x < Width && 0 <= y < Height ==>
           r.screen[x][y] == (if Point(x, y) in Squares(g.block, nextPos, nextRot) then g.block.color
                              else if Point(x, y) in PieceCells(g) then 0 else g.screen[x][y])
  {
  }

  /**
    A blocked sideways move or rotation keeps the piece where it is, drawn
    in its colour, and changes nothing else.
   */
  lemma ReviseRefuses(g: Game, nextPos: Point, nextRot: int, sp: Spawn)
    requires Playable(g) && 0 <= nextRot < 4 && ValidSpawn(sp)
    requires !Fits(Paint(g.screen, PieceCells(g), 0), Squares(g.block, nextPos, nextRot))
    requires nextPos.y != g.pos.y + 1
    ensures var r := ReviseScreen(g, nextPos, nextRot, sp);
      && r == g.(screen := r.screen)
      && forall x, y {:trigger r.screen[x][y]} :: 0 <= x < Width && 0 <= y < Height ==>
           r.screen[x][y] == (if Point(x, y) in PieceCells(g) then g.block.color else g.screen[x][y])
  {
  }

  /**
    A blocked move one row down locks the piece: it is drawn where it
    stands, full rows are removed and scored, and a new piece appears at the
    top. If the new piece overlaps, it is drawn over the stack and the
    game-over countdown starts; otherwise it is left undrawn.
   */
  lemma ReviseLocks(g: Game, nextPos: Point, nextRot: int, sp: Spawn)
    requires Playable(g) && 0 <= nextRot < 4 && ValidSpawn(sp)
    requires !Fits(Paint(g.screen, PieceCells(g), 0), Squares(g.block, nextPos, nextRot))
    requires nextPos.y == g.pos.y + 1
    ensures Shaped(Blocks[sp.kind])
    ensures var r := ReviseScreen(g, nextPos, nextRot, sp);
      var held := PieceCells(g);
      var d := DeleteLine(Paint(Paint(g.screen, held, 0), held, g.block.color), g.score, g.lvl, g.gameSpeed);
      var spawned := Squares(Blocks[sp.kind], Point(sp.x, SpawnRow), sp.rot);
      && r.pos == Point(sp.x, SpawnRow) && r.block == Blocks[sp.kind] && r.rot == sp.rot && !r.turbo
      && r.score == d.score && r.lvl == d.lvl && r.gameSpeed == d.speed
      && (Fits(d.screen, spawned) ==> r.screen == d.screen && r.gameOver == g.gameOver)
      && (!Fits(d.screen, spawned) ==>
            r.screen == Paint(d.screen, spawned, r.block.color) && r.gameOver == GameOverTicks)
  {
    SpawnInBounds(sp);
  }

  /** A rejected sideways move or rotation of a drawn piece leaves the game as it was. */
  lemma RejectedMoveKeepsScreen(g: Game, nextPos: Point, nextRot: int, sp: Spawn)
    requires Playable(g) && 0 <= nextRot < 4 && ValidSpawn(sp)
    requires Holds(g.screen, PieceCells(g), g.block.color)
    requires !Fits(Paint(g.screen, PieceCells(g), 0), Squares(g.block, nextPos, nextRot))
    requires nextPos.y != g.pos.y + 1
    ensures ReviseScreen(g, nextPos, nextRot, sp) == g
  {
    var held := PieceCells(g);
    var (movable, _) := GetSquares(Paint(g.screen, held, 0), g.block, nextPos, nextRot);
    assert !movable;
    RepaintSame(g.screen, held, g.block.color);
  }

  /** `ResetGame`: an empty screen holding only a fresh piece, counters back to their start. */
  function ResetGame(g: Game, sp: Spawn): (r: Game)
    requires ValidSpawn(sp)
    ensures r.gameOver == 0 && r.score == 0 && r.gameSpeed == GameSpeedInit && r.lvl == 1
    ensures r.pos == Point(sp.x, SpawnRow) && r.block == Blocks[sp.kind] && r.rot == sp.rot && !r.turbo
    ensures Shaped(r.block) && AllInBounds(PieceCells(r)) && WellFormed(r.screen)
    ensures forall x, y {:trigger r.screen[x][y]} :: 0 <= x < Width && 0 <= y < Height ==>
      r.screen[x][y] == (if Point(x, y) in PieceCells(r) then r.block.color else 0)
    ensures r.fallCnt == g.fallCnt && r.keys == g.keys && r.latches == g.latches
  {
    var g1 := PutStartPos(g.(screen := EmptyScreen(), gameOver := 0, score := 0,
                             gameSpeed := GameSpeedInit, lvl := 1), sp);
    PaintWellFormed(g1.screen, PieceCells(g1), g1.block.color);
    g1.(screen := Paint(g1.screen, PieceCells(g1), g1.block.color))
  }

  /** The colour cycling of `GameOver`: each occupied cell moves to the next colour, 7 wrapping to 0. */
  function CycleColors(s: Screen): (r: Screen)
    requires Dims(s)
    ensures Dims(r)
    ensures WellFormed(s) ==> WellFormed(r)
    ensures forall x, y :: 0 <= x < Width && 0 <= y < Height ==> (r[x][y] == 0 <==> s[x][y] == 0 || s[x][y] % 8 == 7)
  {
    seq(Width, x requires 0 <= x < Width =>
      seq(Height, y requires 0 <= y < Height => if s[x][y] != 0 then (s[x][y] + 1) % 8 else 0))
  }

  /** `n` game-over ticks' worth of colour cycling. */
  function CycleTimes(s: Screen, n: nat): (r: Screen)
    requires Dims(s)
    ensures Dims(r)
  {
    if n == 0 then s else CycleColors(CycleTimes(s, n - 1))
  }

  /**
    After n cycles a cell of colour c (1 to 7) is blank once c + n reaches 8
    and stays blank; before that it shows colour c + n.
   */
  lemma {:induction false} CycleTimesCell(s: Screen, n: nat, x: int, y: int)
    requires WellFormed(s) && 0 <= x < Width && 0 <= y < Height
    ensures var c := s[x][y];
      CycleTimes(s, n)[x][y] == (if c == 0 || c + n >= 8 then 0 else c + n)
  {
    if n > 0 {
      CycleTimesCell(s, n - 1, x, y);
    }
  }

  /** Seven game-over ticks blank the whole screen, whatever was on it. */
  lemma CycleBlanks(s: Screen)
    requires WellFormed(s)
    ensures forall x, y :: 0 <= x < Width && 0 <= y < Height ==> CycleTimes(s, 7)[x][y] == 0
  {
    forall x, y | 0 <= x < Width && 0 <= y < Height
      ensures CycleTimes(s, 7)[x][y] == 0
    {
      CycleTimesCell(s, 7, x, y);
    }
  }

  /**
    One pass of `loop`. During game over: cycle colours, reset on the left
    button or when the countdown reaches 1, add `LingerTicks` on the right
    button, count down. During play: sample keys, propose, revise.
   */
  function Loop(g: Game, p: Pins, sp: Spawn): (r: Game)
    requires Playable(g) && 0 < g.block.numRotate && ValidSpawn(sp)
    requires 0 <= g.rot < g.block.numRotate
    ensures g.gameOver <= 0 ==> r.gameOver == g.gameOver || r.gameOver == GameOverTicks
    ensures g.gameOver <= 0 ==> r.score >= g.score
    ensures g.gameOver > 0 && !p.rightLow ==> r.gameOver < g.gameOver
  {
    if g.gameOver > 0 then
      var g1 := g.(screen := CycleColors(g.screen));
      var g2 := if p.leftLow || g.gameOver == 1 then ResetGame(g1, sp) else g1;
      var g3 := if p.rightLow then g2.(gameOver := g2.gameOver + LingerTicks) else g2;
      g3.(gameOver := g3.gameOver - 1)
    else
      var k := KeyPadLoop(g.keys, g.latches, p);
      var prop := GetNextPosRot(g.(keys := k.0, latches := k.1), p.bLow);
      ReviseScreen(prop.game, prop.pos, prop.rot, sp)
  }

  /** A reset produces a state of the invariant, with the new piece drawn. */
  lemma ResetKeepsInv(g: Game, sp: Spawn)
    requires ValidSpawn(sp) && 0 <= g.fallCnt < FallPeriod
    ensures var r := ResetGame(g, sp);
      Inv(r) && Holds(r.screen, PieceCells(r), r.block.color)
  {
    var r := ResetGame(g, sp);
    CatalogueShape(sp.kind);
    forall i | 0 <= i < 4
      ensures r.screen[PieceCells(r)[i].x][PieceCells(r)[i].y] == r.block.color
    {
      assert PieceCells(r)[i] in PieceCells(r);
    }
  }

  /** A committed move keeps the invariant, with the piece drawn at its new place. */
  lemma CommitKeepsInv(g: Game, nextPos: Point, nextRot: int, sp: Spawn)
    requires Inv(g) && 0 <= nextRot < g.block.numRotate && ValidSpawn(sp)
    requires Fits(Paint(g.screen, PieceCells(g), 0), Squares(g.block, nextPos, nextRot))
    ensures Inv(ReviseScreen(g, nextPos, nextRot, sp))
  {
    var r := ReviseScreen(g, nextPos, nextRot, sp);
    var moved := Squares(g.block, nextPos, nextRot);
    ReviseCommits(g, nextPos, nextRot, sp);
    assert PieceCells(r) == moved;
    forall i | 0 <= i < 4
      ensures r.screen[moved[i].x][moved[i].y] == g.block.color
    {
      assert moved[i] in moved;
    }
  }

  /** A refused sideways move or rotation keeps the invariant, with the piece drawn. */
  lemma RefuseKeepsInv(g: Game, nextPos: Point, nextRot: int, sp: Spawn)
    requires Inv(g) && 0 <= nextRot < 4 && ValidSpawn(sp)
    requires !Fits(Paint(g.screen, PieceCells(g), 0), Squares(g.block, nextPos, nextRot))
    requires nextPos.y != g.pos.y + 1
    ensures Inv(ReviseScreen(g, nextPos, nextRot, sp))
  {
    var r := ReviseScreen(g, nextPos, nextRot, sp);
    var held := PieceCells(g);
    ReviseRefuses(g, nextPos, nextRot, sp);
    assert PieceCells(r) == held;
    forall i | 0 <= i < 4
      ensures r.screen[held[i].x][held[i].y] == g.block.color
    {
      assert held[i] in held;
    }
  }

  /**
    A lock keeps the invariant: the next piece is in bounds on a well-formed
    screen, and while the game goes on its cells are empty.
   */
  lemma LockKeepsInv(g: Game, nextPos: Point, nextRot: int, sp: Spawn)
    requires Inv(g) && 0 <= nextRot < 4 && ValidSpawn(sp)
    requires !Fits(Paint(g.screen, PieceCells(g), 0), Squares(g.block, nextPos, nextRot))
    requires nextPos.y == g.pos.y + 1
    ensures Inv(ReviseScreen(g, nextPos, nextRot, sp))
    ensures ReviseScreen(g, nextPos, nextRot, sp).score >= g.score
  {
    var r := ReviseScreen(g, nextPos, nextRot, sp);
    var held := PieceCells(g);
    var lifted := Paint(g.screen, held, 0);
    var relocked := Paint(lifted, held, g.block.color);
    PaintWellFormed(g.screen, held, 0);
    PaintWellFormed(lifted, held, g.block.color);
    DeleteLineWellFormed(relocked, g.score, g.lvl, g.gameSpeed);
    var d := DeleteLine(relocked, g.score, g.lvl, g.gameSpeed);
    var spawned := Squares(Blocks[sp.kind], Point(sp.x, SpawnRow), sp.rot);
    ReviseLocks(g, nextPos, nextRot, sp);
    SpawnInBounds(sp);
    CatalogueShape(sp.kind);
    assert PieceCells(r) == spawned;
    if Fits(d.screen, spawned) {
      assert r.screen == d.screen;
      assert Holds(r.screen, spawned, 0);
    } else {
      PaintWellFormed(d.screen, spawned, r.block.color);
      assert r.gameOver == GameOverTicks;
    }
  }

  /** `ReviseScreen` keeps the invariant and never lowers the score. */
  lemma ReviseKeepsInv(g: Game, nextPos: Point, nextRot: int, sp: Spawn)
    requires Inv(g) && 0 <= nextRot < g.block.numRotate && ValidSpawn(sp)
    ensures Inv(ReviseScreen(g, nextPos, nextRot, sp))
    ensures ReviseScreen(g, nextPos, nextRot, sp).score >= g.score
  {
    var moved := Squares(g.block, nextPos, nextRot);
    if Fits(Paint(g.screen, PieceCells(g), 0), moved) {
      CommitKeepsInv(g, nextPos, nextRot, sp);
      ReviseCommits(g, nextPos, nextRot, sp);
    } else if nextPos.y != g.pos.y + 1 {
      RefuseKeepsInv(g, nextPos, nextRot, sp);
      ReviseRefuses(g, nextPos, nextRot, sp);
    } else {
      LockKeepsInv(g, nextPos, nextRot, sp);
    }
  }

  /** Every pass of the main loop keeps the invariant, whatever the buttons and the spawn draws. */
  lemma LoopKeepsInv(g: Game, p: Pins, sp: Spawn)
    requires Inv(g) && ValidSpawn(sp)
    ensures Inv(Loop(g, p, sp))
  {
    if g.gameOver > 0 {
      var g1 := g.(screen := CycleColors(g.screen));
      if p.leftLow || g.gameOver == 1 {
        ResetKeepsInv(g1, sp);
      }
    } else {
      var k := KeyPadLoop(g.keys, g.latches, p);
      var prop := GetNextPosRot(g.(keys := k.0, latches := k.1), p.bLow);
      ReviseKeepsInv(prop.game, prop.pos, prop.rot, sp);
    }
  }

  /** While the game is on, a pass of the loop never lowers the score. */
  lemma PlayScoreGrows(g: Game, p: Pins, sp: Spawn)
    requires Inv(g) && ValidSpawn(sp) && g.gameOver <= 0
    ensures Loop(g, p, sp).score >= g.score
  {
    var k := KeyPadLoop(g.keys, g.latches, p);
    var prop := GetNextPosRot(g.(keys := k.0, latches := k.1), p.bLow);
    ReviseKeepsInv(prop.game, prop.pos, prop.rot, sp);
  }

  /**
    The game-over screen counts down by one per pass, or rises by
    `LingerTicks - 1` while the right button is held, and a pass that starts
    at 1 or sees the left button starts a new game with score 0.
   */
  lemma GameOverCountdown(g: Game, p: Pins, sp: Spawn)
    requires Inv(g) && ValidSpawn(sp) && g.gameOver > 0
    ensures var r := Loop(g, p, sp);
      && (p.leftLow || g.gameOver == 1 ==>
            r.score == 0 && r.gameOver == (if p.rightLow then LingerTicks - 1 else -1))
      && (!p.leftLow && g.gameOver > 1 ==>
            && r.score == g.score
            && r.gameOver == g.gameOver - 1 + (if p.rightLow then LingerTicks else 0)
            && r.screen == CycleColors(g.screen))
  {
  }
}

=== FILE: tetris_lines.dfy ===
/**
  Line clearing and scoring. Rows are scanned top to bottom; a full row j is
  removed by copying row k-1 into row k for k = j down to 1. Row 0 is never
  blanked, so a removal leaves a copy of row 0 behind at the top, and a full
  row 0 is scored without being moved. Each removed row is worth twice the
  previous one within one call; level and game speed follow the score.
 */
module TetrisLines {
  import opened TetrisScreen

  const GameSpeedInit := 100
  const MaxLevel := 10

  /** No cell of row `j` is empty. */
  predicate RowFull(s: Screen, j: int)
    requires Dims(s) && 0 <= j < Height
  {
    forall i :: 0 <= i < Width ==> s[i][j] != 0
  }

  /** `for i in range(Width): screen[i][k] = screen[i][k - 1]` */
  function CopyRowDown(s: Screen, k: int): (r: Screen)
    requires Dims(s) && 1 <= k < Height
    ensures Dims(r)
    ensures forall x, y {:trigger r[x][y]} :: 0 <= x < Width && 0 <= y < Height ==>
      r[x][y] == (if y == k then s[x][k - 1] else s[x][y])
  {
    seq(Width, i requires 0 <= i < Width => s[i][k := s[i][k - 1]])
  }

  /** `for k in range(j, 0, -1)`: the copies, lowest row first. */
  function ShiftDown(s: Screen, j: int): (r: Screen)
    requires Dims(s) && 0 <= j < Height
    ensures Dims(r)
    ensures forall x, y {:trigger r[x][y]} :: 0 <= x < Width && 0 <= y < Height ==>
      r[x][y] == (if 1 <= y <= j then s[x][y - 1] else s[x][y])
    decreases j
  {
    if j == 0 then s else ShiftDown(CopyRowDown(s, j), j - 1)
  }

  function Pow2(n: nat): (p: nat)
    ensures p >= 1
  {
    if n == 0 then 1 else 2 * Pow2(n - 1)
  }

  /** `min(int(score / 10.0), 10)` for a non-negative score. */
  function LevelOf(score: int): (l: int)
    requires score >= 0
    ensures 0 <= l <= MaxLevel
    ensures 10 * l <= score
    ensures l < MaxLevel ==> score < 10 * (l + 1)
  {
    if score / 10 < MaxLevel then score / 10 else MaxLevel
  }

  /** Score, the award of the next removed row, level and game speed. */
  datatype Tally = Tally(score: int, points: int, lvl: int, speed: int)

  /**
    One removed row: `score += points; points *= 2`, then level and speed.
    The score gains exactly what the points gain, the points double, and
    the level and speed land in their ranges.
   */
  function Bump(t: Tally): (r: Tally)
    requires t.score >= 0 && t.points >= 1
    ensures r.score >= 0 && r.points >= 1
    ensures r.points == 2 * t.points && r.score - t.score == r.points - t.points
    ensures 0 <= r.lvl <= MaxLevel && 0 <= r.speed <= GameSpeedInit
  {
    var score := t.score + t.points;
    var lvl := LevelOf(score);
    Tally(score, t.points * 2, lvl, GameSpeedInit - 10 * lvl)
  }

  /** `n` removed rows. */
  function Award(t: Tally, n: nat): (r: Tally)
    requires t.score >= 0 && t.points >= 1
    ensures r.score >= 0 && r.points >= 1
    decreases n
  {
    if n == 0 then t else Award(Bump(t), n - 1)
  }

  /**
    Rows `j` to the bottom still to be scanned. The board keeps its
    dimensions, the points never drop, and the score gains exactly what the
    points gain.
   */
  function Scan(s: Screen, j: int, t: Tally): (r: (Screen, Tally))
    requires Dims(s) && 0 <= j <= Height
    requires t.score >= 0 && t.points >= 1
    ensures Dims(r.0)
    ensures r.1.points >= t.points && r.1.score - t.score == r.1.points - t.points
    decreases Height - j
  {
    if j == Height then (s, t)
    else if RowFull(s, j) then Scan(ShiftDown(s, j), j + 1, Bump(t))
    else
      Scan(s, j + 1, t)
  }

  /** The rows among the first `j` that are not full, top to bottom. */
  function Kept(s: Screen, j: int): (ks: seq<int>)
    requires Dims(s) && 0 <= j <= Height
    ensures |ks| <= j
    ensures forall m :: 0 <= m < |ks| ==> 0 <= ks[m] < j && !RowFull(s, ks[m])
  {
    if j == 0 then []
    else Kept(s, j - 1) + (if RowFull(s, j - 1) then [] else [j - 1])
  }

  /** The number of full rows among the first `j`. */
  function FullBefore(s: Screen, j: int): nat
    requires Dims(s) && 0 <= j <= Height
  {
    j - |Kept(s, j)|
  }

  /** Rows `j` and below are still those of `b`. */
  ghost predicate Untouched(b: Screen, c: Screen, j: int)
    requires Dims(b) && Dims(c)
  {
    forall x, y {:trigger c[x][y]} :: 0 <= x < Width && 0 <= j <= y < Height ==> c[x][y] == b[x][y]
  }

  /** Rows 0 to `f - 1`, and row 0 itself, are copies of row 0 of `b`. */
  ghost predicate TopCopies(b: Screen, c: Screen, f: int)
    requires Dims(b) && Dims(c)
  {
    && (forall x :: 0 <= x < Width ==> c[x][0] == b[x][0])
    && (forall x, y {:trigger c[x][y]} :: 0 <= x < Width && 0 <= y < f && y < Height ==> c[x][y] == b[x][0])
  }

  /** Rows `f` to `j - 1` are the rows `ks` of `b`, in order. */
  ghost predicate Compacted(b: Screen, c: Screen, f: int, j: int, ks: seq<int>)
    requires Dims(b) && Dims(c) && 0 <= f && j <= Height && j - f == |ks|
    requires forall m :: 0 <= m < |ks| ==> 0 <= ks[m] < Height
  {
    forall x, y {:trigger c[x][y]} :: 0 <= x < Width && f <= y < j ==> c[x][y] == b[x][ks[y - f]]
  }

  /** The state the row scan keeps after looking at rows 0 to j - 1 of `b`. */
  ghost predicate ScanState(b: Screen, c: Screen, j: int)
    requires Dims(b) && Dims(c) && 0 <= j <= Height
  {
    && Untouched(b, c, j)
    && TopCopies(b, c, FullBefore(b, j))
    && Compacted(b, c, FullBefore(b, j), j, Kept(b, j))
    && (FullBefore(b, j) == 0 ==> c == b)
  }

  /** Removing a full row `j` keeps the scan state. */
  lemma ScanStepFull(b: Screen, c: Screen, j: int)
    requires Dims(b) && Dims(c) && 0 <= j < Height
    requires ScanState(b, c, j) && RowFull(c, j)
    ensures RowFull(b, j)
    ensures ScanState(b, ShiftDown(c, j), j + 1)
  {
    assert forall x :: 0 <= x < Width ==> c[x][j] == b[x][j];
    var ks := Kept(b, j);
    var f := FullBefore(b, j);
    assert Kept(b, j + 1) == ks;
    var c' := ShiftDown(c, j);
    assert FullBefore(b, j + 1) == f + 1;
    assert Untouched(b, c', j + 1);
    forall x, y | 0 <= x < Width && 0 <= y < f + 1 && y < Height
      ensures c'[x][y] == b[x][0]
    {
      if y > 0 {
        assert c'[x][y] == c[x][y - 1];
      }
    }
    assert TopCopies(b, c', f + 1);
    forall x, y | 0 <= x < Width && f + 1 <= y < j + 1
      ensures c'[x][y] == b[x][ks[y - (f + 1)]]
    {
      assert c'[x][y] == c[x][y - 1];
    }
    assert Compacted(b, c', f + 1, j + 1, ks);
  }

  /** Passing over a row `j` that is not full keeps the scan state. */
  lemma ScanStepKept(b: Screen, c: Screen, j: int)
    requires Dims(b) && Dims(c) && 0 <= j < Height
    requires ScanState(b, c, j) && !RowFull(c, j)
    ensures !RowFull(b, j)
    ensures ScanState(b, c, j + 1)
  {
    assert forall x :: 0 <= x < Width ==> c[x][j] == b[x][j];
    assert Kept(b, j + 1) == Kept(b, j) + [j];
  }

  /** The scan of the remaining rows ends in the compacted screen. */
  lemma {:induction false} ScanCompacts(b: Screen, c: Screen, j: int, t: Tally)
    requires Dims(b) && Dims(c) && 0 <= j <= Height
    requires ScanState(b, c, j)
    requires t.score >= 0 && t.points >= 1
    ensures ScanState(b, Scan(c, j, t).0, Height)
    decreases Height - j
  {
    if j < Height {
      if RowFull(c, j) {
        ScanStepFull(b, c, j);
        ScanCompacts(b, ShiftDown(c, j), j + 1, Bump(t));
      } else {
        ScanStepKept(b, c, j);
        ScanCompacts(b, c, j + 1, t);
      }
    }
  }

  lemma {:induction false} FullBeforeGrows(b: Screen, j: int, k: int)
    requires Dims(b) && 0 <= j <= k <= Height
    ensures FullBefore(b, j) <= FullBefore(b, k)
    decreases k - j
  {
    if j < k {
      FullBeforeGrows(b, j, k - 1);
    }
  }

  /** Row `j` is still the original row while the scan stands at `j`. */
  lemma UntouchedRow(b: Screen, c: Screen, j: int)
    requires Dims(b) && Dims(c) && 0 <= j < Height
    requires Untouched(b, c, j)
    ensures RowFull(c, j) <==> RowFull(b, j)
  {
    assert forall x :: 0 <= x < Width ==> c[x][j] == b[x][j];
  }

  /** Removing row `j` leaves the rows below it as they were. */
  lemma ShiftDownUntouched(b: Screen, c: Screen, j: int)
    requires Dims(b) && Dims(c) && 0 <= j < Height
    requires Untouched(b, c, j)
    ensures Untouched(b, ShiftDown(c, j), j + 1)
  {
  }

  /** A full row adds one to the count of full rows. */
  lemma FullRowCounts(b: Screen, j: int)
    requires Dims(b) && 0 <= j < Height && RowFull(b, j)
    ensures FullBefore(b, j + 1) == FullBefore(b, j) + 1
  {
    assert Kept(b, j + 1) == Kept(b, j);
  }

  /** The scan of the remaining rows makes one award per full row of `b` it meets. */
  lemma {:induction false} ScanAwards(b: Screen, c: Screen, j: int, t: Tally)
    requires Dims(b) && Dims(c) && 0 <= j <= Height
    requires Untouched(b, c, j)
    requires t.score >= 0 && t.points >= 1
    ensures FullBefore(b, j) <= FullBefore(b, Height)
    ensures Scan(c, j, t).1 == Award(t, FullBefore(b, Height) - FullBefore(b, j))
    decreases Height - j
  {
    FullBeforeGrows(b, j, Height);
    var n := FullBefore(b, Height) - FullBefore(b, j);
    if j == Height {
      assert Scan(c, j, t) == (c, t);
    } else {
      FullBeforeGrows(b, j + 1, Height);
      UntouchedRow(b, c, j);
      if RowFull(c, j) {
        var c' := ShiftDown(c, j);
        ShiftDownUntouched(b, c, j);
        ScanAwards(b, c', j + 1, Bump(t));
        FullRowCounts(b, j);
        assert Scan(c, j, t) == Scan(c', j + 1, Bump(t));
      } else {
        ScanAwards(b, c, j + 1, t);
        assert FullBefore(b, j + 1) == FullBefore(b, j);
        assert Scan(c, j, t) == Scan(c, j + 1, t);
      }
    }
  }

  /** `n` awards starting from a fresh call add 2^n - 1 points. */
  lemma {:induction false} AwardTotal(t: Tally, n: nat, k: nat, score0: int, lvl0: int, speed0: int)
    requires score0 >= 0
    requires t.points == Pow2(k) && t.score == score0 + t.points - 1
    requires k == 0 ==> t.lvl == lvl0 && t.speed == speed0
    requires k > 0 ==> t.lvl == LevelOf(t.score) && t.speed == GameSpeedInit - 10 * t.lvl
    ensures var r := Award(t, n);
      && r.score == score0 + Pow2(k + n) - 1
      && (k + n == 0 ==> r.lvl == lvl0 && r.speed == speed0)
      && (k + n > 0 ==> r.lvl == LevelOf(r.score) && r.speed == GameSpeedInit - 10 * r.lvl)
    decreases n
  {
    if n > 0 {
      assert Pow2(k + 1) == 2 * Pow2(k);
      AwardTotal(Bump(t), n - 1, k + 1, score0, lvl0, speed0);
    }
  }

  /** What one call leaves behind: the screen, score, level and game speed. */
  datatype Cleared = Cleared(screen: Screen, score: int, lvl: int, speed: int)

  /** Before the scan nothing is removed. */
  lemma ScanStart(s: Screen)
    requires Dims(s)
    ensures ScanState(s, s, 0)
  {
    assert Kept(s, 0) == [];
  }

  /** After the scan: F copies of row 0 over the kept rows. */
  lemma ScanFinal(b: Screen, c: Screen)
    requires Dims(b) && Dims(c)
    requires ScanState(b, c, Height)
    ensures var ks := Kept(b, Height);
      var f := Height - |ks|;
      && (forall x, y {:trigger c[x][y]} :: 0 <= x < Width && 0 <= y < Height ==>
            c[x][y] == (if y < f then b[x][0] else b[x][ks[y - f]]))
      && (f == 0 ==> c == b)
  {
  }

  /** The screen the whole scan leaves: F copies of row 0 over the kept rows. */
  lemma ScanScreen(s: Screen, t: Tally)
    requires Dims(s) && t.score >= 0 && t.points >= 1
    ensures var c := Scan(s, 0, t).0;
      var ks := Kept(s, Height);
      var f := Height - |ks|;
      && (forall x, y {:trigger c[x][y]} :: 0 <= x < Width && 0 <= y < Height ==>
            c[x][y] == (if y < f then s[x][0] else s[x][ks[y - f]]))
      && (f == 0 ==> c == s)
  {
    ScanStart(s);
    ScanCompacts(s, s, 0, t);
    ScanFinal(s, Scan(s, 0, t).0);
  }

  /** The tally the whole scan leaves: 2^F - 1 points, level and speed recomputed if F > 0. */
  lemma ScanTally(s: Screen, score: int, lvl: int, speed: int)
    requires Dims(s) && score >= 0
    ensures var r := Scan(s, 0, Tally(score, 1, lvl, speed)).1;
      var f := Height - |Kept(s, Height)|;
      && r.score == score + Pow2(f) - 1
      && (f == 0 ==> r.lvl == lvl && r.speed == speed)
      && (f > 0 ==> r.lvl == LevelOf(r.score) && r.speed == GameSpeedInit - 10 * r.lvl)
  {
    var t0 := Tally(score, 1, lvl, speed);
    var f := Height - |Kept(s, Height)|;
    ScanAwards(s, s, 0, t0);
    assert FullBefore(s, 0) == 0 && FullBefore(s, Height) == f;
    var r := Scan(s, 0, t0).1;
    assert r == Award(t0, f);
    AwardTotal(t0, f, 0, score, lvl, speed);
    assert r.score == score + Pow2(f) - 1;
  }

  /**
    Removes every full row. With F the number of full rows, the result is F
    copies of row 0 above the rows that were not full, in their order; the
    score grows by 1 + 2 + ... + 2^(F-1); level and speed are recomputed only
    when a row was removed.
   */
  function DeleteLine(s: Screen, score: int, lvl: int, speed: int): (r: Cleared)
    requires Dims(s) && score >= 0
    ensures Dims(r.screen)
    ensures var ks := Kept(s, Height);
      var f := Height - |ks|;
      && (forall x, y {:trigger r.screen[x][y]} :: 0 <= x < Width && 0 <= y < Height ==>
            r.screen[x][y] == (if y < f then s[x][0] else s[x][ks[y - f]]))
      && r.score == score + Pow2(f) - 1
      && (f == 0 ==> r.screen == s && r.lvl == lvl && r.speed == speed)
      && (f > 0 ==> r.lvl == LevelOf(r.score) && r.speed == GameSpeedInit - 10 * r.lvl)
  {
    var t := Scan(s, 0, Tally(score, 1, lvl, speed));
    ScanScreen(s, Tally(score, 1, lvl, speed));
    ScanTally(s, score, lvl, speed);
    Cleared(t.0, t.1.score, t.1.lvl, t.1.speed)
  }

  lemma {:induction false} NoneFullKeepsAll(s: Screen, j: int)
    requires Dims(s) && 0 <= j <= Height
    requires forall y :: 0 <= y < j ==> !RowFull(s, y)
    ensures |Kept(s, j)| == j
  {
    if j > 0 {
      NoneFullKeepsAll(s, j - 1);
    }
  }

  /** Colours survive the compaction: the result holds only cells of the input. */
  lemma DeleteLineWellFormed(s: Screen, score: int, lvl: int, speed: int)
    requires WellFormed(s) && score >= 0
    ensures WellFormed(DeleteLine(s, score, lvl, speed).screen)
    ensures DeleteLine(s, score, lvl, speed).score >= score
  {
  }

  /**
    When row 0 is not full, one call leaves no full row behind, so a second
    call changes nothing: neither the screen nor the score, level or speed.
   */
  lemma DeleteLineSettles(s: Screen, score: int, lvl: int, speed: int)
    requires Dims(s) && score >= 0
    requires !RowFull(s, 0)
    ensures var r := DeleteLine(s, score, lvl, speed);
      && (forall y :: 0 <= y < Height ==> !RowFull(r.screen, y))
      && DeleteLine(r.screen, r.score, r.lvl, r.speed) == r
  {
    var r := DeleteLine(s, score, lvl, speed);
    var ks := Kept(s, Height);
    var f := Height - |ks|;
    forall y | 0 <= y < Height
      ensures !RowFull(r.screen, y)
    {
      var src := if y < f then 0 else ks[y - f];
      assert !RowFull(s, src);
      var i :| 0 <= i < Width && s[i][src] == 0;
      assert r.screen[i][y] == s[i][src];
    }
    NoneFullKeepsAll(r.screen, Height);
  }
}

=== FILE: tetris_screen.dfy ===
/**
  The playfield of the falling-block game: a 10 x 20 grid of colour indices
  indexed `screen[x][y]` (column first, row 0 at the top), 0 meaning empty.
  This module holds the collision check and the cell writes the engine uses.
 */
module TetrisScreen {
  import opened TetrisBlocks

  const Width := 10
  const Height := 20
  const MaxColor := 7

  type Screen = seq<seq<int>>

  datatype Point = Point(x: int, y: int)

  /** The grid has its fixed dimensions. */
  predicate Dims(s: Screen) {
    |s| == Width && forall x :: 0 <= x < Width ==> |s[x]| == Height
  }

  /** Dimensions are fixed and every cell is empty or one of the seven colours. */
  predicate WellFormed(s: Screen) {
    && Dims(s)
    && forall x, y :: 0 <= x < Width && 0 <= y < Height ==> 0 <= s[x][y] <= MaxColor
  }

  predicate InBounds(p: Point) {
    0 <= p.x < Width && 0 <= p.y < Height
  }

  /** The all-empty grid. */
  function EmptyScreen(): (s: Screen)
    ensures WellFormed(s)
    ensures forall x, y :: 0 <= x < Width && 0 <= y < Height ==> s[x][y] == 0
  {
    seq(Width, x => seq(Height, y => 0))
  }

  /** The absolute cells of `block` in rotation `rot` with its pivot at `pos`. */
  function Squares(block: Block, pos: Point, rot: int): (ps: seq<Point>)
    requires Shaped(block) && 0 <= rot < 4
    ensures |ps| == 4
    ensures forall i :: 0 <= i < 4 ==>
      ps[i] == Point(pos.x + block.square[rot][i].dx, pos.y + block.square[rot][i].dy)
  {
    seq(4, i requires 0 <= i < 4 =>
      Point(pos.x + block.square[rot][i].dx, pos.y + block.square[rot][i].dy))
  }

  predicate AllInBounds(ps: seq<Point>) {
    forall i :: 0 <= i < |ps| ==> InBounds(ps[i])
  }

  /**
    One cell of the collision test. The bounds tests come first and
    short-circuit, so the grid is only read at an in-bounds cell.
   */
  predicate Blocked(s: Screen, p: Point)
    requires Dims(s)
  {
    p.x < 0 || p.x >= Width || p.y < 0 || p.y >= Height || s[p.x][p.y] != 0
  }

  /** The `overlap |= ...` accumulation over the cells of a piece. */
  function Overlap(s: Screen, ps: seq<Point>): (r: bool)
    requires Dims(s)
    ensures r <==> exists i :: 0 <= i < |ps| && Blocked(s, ps[i])
  {
    if |ps| == 0 then false
    else
      var rest := Overlap(s, ps[1..]);
      assert forall i :: 1 <= i < |ps| ==> ps[i] == ps[1..][i - 1];
      Blocked(s, ps[0]) || rest
  }

  /** A placement all of whose cells are on the grid and empty. */
  predicate Fits(s: Screen, ps: seq<Point>)
    requires Dims(s)
  {
    forall i :: 0 <= i < |ps| ==> InBounds(ps[i]) && s[ps[i].x][ps[i].y] == 0
  }

  /**
    The collision check: whether the piece can stand at `pos` in rotation
    `rot`, together with the cells it would occupy there.
   */
  function GetSquares(s: Screen, block: Block, pos: Point, rot: int): (r: (bool, seq<Point>))
    requires Dims(s) && Shaped(block) && 0 <= rot < 4
    ensures r.1 == Squares(block, pos, rot)
    ensures r.0 <==> Fits(s, r.1)
  {
    var squares := Squares(block, pos, rot);
    (!Overlap(s, squares), squares)
  }

  /** One cell write `screen[p.x][p.y] = v`. */
  function SetCell(s: Screen, p: Point, v: int): (r: Screen)
    requires Dims(s) && InBounds(p)
    ensures Dims(r)
  {
    s[p.x := s[p.x][p.y := v]]
  }

  /**
    The `for i in range(4): screen[...] = v` loops: the cells of `ps` are
    written one after the other with the same value.
   */
  function Paint(s: Screen, ps: seq<Point>, v: int): (r: Screen)
    requires Dims(s) && AllInBounds(ps)
    ensures Dims(r)
    ensures forall x, y :: 0 <= x < Width && 0 <= y < Height ==>
      r[x][y] == (if Point(x, y) in ps then v else s[x][y])
    decreases |ps|
  {
    if |ps| == 0 then s
    else
      assert forall i :: 0 <= i < |ps| - 1 ==> ps[1..][i] == ps[i + 1];
      Paint(SetCell(s, ps[0], v), ps[1..], v)
  }

  lemma PaintWellFormed(s: Screen, ps: seq<Point>, v: int)
    requires WellFormed(s) && AllInBounds(ps) && 0 <= v <= MaxColor
    ensures WellFormed(Paint(s, ps, v))
  {
  }

  /** Every cell of `ps` holds `v`. */
  predicate Holds(s: Screen, ps: seq<Point>, v: int)
    requires Dims(s) && AllInBounds(ps)
  {
    forall i :: 0 <= i < |ps| ==> s[ps[i].x][ps[i].y] == v
  }

  /** Painting cells with the value they already hold changes nothing. */
  lemma PaintSame(s: Screen, ps: seq<Point>, v: int)
    requires Dims(s) && AllInBounds(ps) && Holds(s, ps, v)
    ensures Paint(s, ps, v) == s
  {
    var r := Paint(s, ps, v);
    forall x | 0 <= x < Width
      ensures r[x] == s[x]
    {
      forall y | 0 <= y < Height
        ensures r[x][y] == s[x][y]
      {
        if Point(x, y) in ps {
          var i :| 0 <= i < |ps| && ps[i] == Point(x, y);
        }
      }
    }
  }

  /** Lifting cells and painting them back with the value they held restores the screen. */
  lemma RepaintSame(s: Screen, ps: seq<Point>, v: int)
    requires Dims(s) && AllInBounds(ps) && Holds(s, ps, v)
    ensures Paint(Paint(s, ps, 0), ps, v) == s
  {
    var lifted := Paint(s, ps, 0);
    var r := Paint(lifted, ps, v);
    var direct := Paint(s, ps, v);
    forall x | 0 <= x < Width
      ensures r[x] == direct[x]
    {
      forall y | 0 <= y < Height
        ensures r[x][y] == direct[x][y]
      {
      }
    }
    assert r == direct;
    PaintSame(s, ps, v);
  }
}

=== FILE: typeset.dfy ===
/**
  Text layout on the display and the debounced button handler. Layout
  moves a pixel cursor over the text, drawing each character that starts
  inside the display and wrapping when the next character would not fit or
  after a newline. Display size, font size and interrupt times are
  parameters.
 */
module Typeset {
  import opened Outcomes
  import opened Sequences

  /** The pixel size of one character cell of a font. */
  datatype Font = Font(width: int, height: int)

  /** The 8 x 16 and 16 x 32 fonts. */
  const Font1 := Font(8, 16)
  const Font2 := Font(16, 32)

  /** A pixel position: `col` across, `line` down. */
  datatype Cursor = Cursor(col: int, line: int)

  /** One character drawn at a pixel position. */
  datatype Glyph = Glyph(ch: char, col: int, line: int)

  /** The characters drawn by a layout, and where the cursor ends. */
  datatype Layout = Layout(glyphs: seq<Glyph>, cursor: Cursor)

  /** A character is drawn only from a position inside the display. */
  predicate Visible(c: Cursor, width: int, height: int) {
    c.col < width && c.line < height
  }

  /** After `ch` the cursor goes to the next line: the next cell would not fit, or `ch` is a newline. */
  predicate WrapsAfter(c: Cursor, ch: char, font: Font, width: int) {
    c.col + font.width > width - font.width || ch == '\n'
  }

  /** The cursor move for one character. */
  function Advance(c: Cursor, ch: char, font: Font, width: int): (r: Cursor)
    ensures ch == '\n' ==> r == Cursor(0, c.line + font.height)
    ensures width >= font.width ==> r.col <= width - font.width
    ensures r.line == c.line || r.line == c.line + font.height
    ensures r.line == c.line ==> r.col == c.col + font.width || font.height == 0
  {
    var col := c.col + font.width;
    if col > width - font.width || ch == '\n' then Cursor(0, c.line + font.height)
    else Cursor(col, c.line)
  }

  /** The glyph drawn for one character at `c`: one if `c` is inside the display, none otherwise. */
  function Drawn(c: Cursor, ch: char, width: int, height: int): seq<Glyph> {
    if Visible(c, width, height) then [Glyph(ch, c.col, c.line)] else []
  }

  /** The loop of `typeset` from cursor `c` over `text`: at most one glyph per character. */
  function TypesetFrom(c: Cursor, text: string, font: Font, width: int, height: int): (r: Layout)
    decreases |text|
    ensures |r.glyphs| <= |text|
  {
    if |text| == 0 then Layout([], c)
    else
      var rest := TypesetFrom(Advance(c, text[0], font, width), text[1..], font, width, height);
      Layout(Drawn(c, text[0], width, height) + rest.glyphs, rest.cursor)
  }

  /**
    What the loop draws: every glyph starts inside the display and shows a
    character of the text, the cursor never moves up, and a cursor inside
    the display draws the first character where it stands.
   */
  lemma {:induction false} LayoutFacts(c: Cursor, text: string, font: Font, width: int, height: int)
    decreases |text|
    ensures Drawable(TypesetFrom(c, text, font, width, height).glyphs, width, height)
    ensures forall g :: g in TypesetFrom(c, text, font, width, height).glyphs ==> g.ch in text
    ensures font.height >= 0 ==> TypesetFrom(c, text, font, width, height).cursor.line >= c.line
    ensures |text| > 0 && Visible(c, width, height) ==>
      var gs := TypesetFrom(c, text, font, width, height).glyphs;
      |gs| > 0 && gs[0] == Glyph(text[0], c.col, c.line)
  {
    if |text| > 0 {
      var c1 := Advance(c, text[0], font, width);
      LayoutFacts(c1, text[1..], font, width, height);
      var rest := TypesetFrom(c1, text[1..], font, width, height);
      var drawn := Drawn(c, text[0], width, height);
      var r := TypesetFrom(c, text, font, width, height);
      assert r.glyphs == drawn + rest.glyphs;
      assert forall x :: x in text[1..] ==> x in text;
      forall g | g in r.glyphs
        ensures g.col < width && g.line < height && g.ch in text
      {
        if g !in rest.glyphs {
          assert g in drawn;
        }
      }
    }
  }

  /** Every glyph starts inside the display. */
  predicate Drawable(gs: seq<Glyph>, width: int, height: int) {
    forall g :: g in gs ==> g.col < width && g.line < height
  }

  /** The characters of a sequence of glyphs. */
  function Chars(gs: seq<Glyph>): (r: string)
    ensures |r| == |gs| && forall i :: 0 <= i < |gs| ==> r[i] == gs[i].ch
  {
    seq(|gs|, i requires 0 <= i < |gs| => gs[i].ch)
  }

  /** The drawn characters are characters of the text, in the text's order. */
  lemma {:induction false} GlyphsInOrder(c: Cursor, text: string, font: Font, width: int, height: int)
    decreases |text|
    ensures SubsequenceOf(Chars(TypesetFrom(c, text, font, width, height).glyphs), text)
  {
    if |text| > 0 {
      var c1 := Advance(c, text[0], font, width);
      GlyphsInOrder(c1, text[1..], font, width, height);
      var rest := Chars(TypesetFrom(c1, text[1..], font, width, height).glyphs);
      var all := Chars(TypesetFrom(c, text, font, width, height).glyphs);
      TypesetStep(c, text, font, width, height);
      if Visible(c, width, height) {
        assert all == [text[0]] + rest;
        assert all[1..] == rest;
      } else {
        assert all == rest;
        SubsequencePrepend(text[0], rest, text[1..]);
        assert [text[0]] + text[1..] == text;
      }
    }
  }

  /** The cursor when the loop reaches character `i` of `text`. */
  function CursorAt(c: Cursor, text: string, font: Font, width: int, height: int, i: int): Cursor
    requires 0 <= i <= |text|
  {
    TypesetFrom(c, text[..i], font, width, height).cursor
  }

  /** The glyph character `i` of `text` gets if its cursor is inside the display. */
  function GlyphAt(c: Cursor, text: string, font: Font, width: int, height: int, i: int): Glyph
    requires 0 <= i < |text|
  {
    var at := CursorAt(c, text, font, width, height, i);
    Glyph(text[i], at.col, at.line)
  }

  /** Reaching character `i + 1` from `c` is reaching character `i` of the rest from the cursor after the first. */
  lemma CursorShift(c: Cursor, text: string, font: Font, width: int, height: int, i: int)
    requires 0 <= i < |text|
    ensures CursorAt(c, text, font, width, height, i + 1)
         == CursorAt(Advance(c, text[0], font, width), text[1..], font, width, height, i)
  {
    var pre := text[..i + 1];
    assert pre[0] == text[0];
    assert pre[1..] == text[1..][..i];
    TypesetStep(c, pre, font, width, height);
  }

  /** Every character whose cursor is inside the display is drawn there. */
  lemma VisibleCharsDrawn(c: Cursor, text: string, font: Font, width: int, height: int, i: int)
    requires 0 <= i < |text|
    ensures Visible(CursorAt(c, text, font, width, height, i), width, height) ==>
      GlyphAt(c, text, font, width, height, i) in TypesetFrom(c, text, font, width, height).glyphs
  {
    var at := CursorAt(c, text, font, width, height, i);
    assert text == text[..i] + text[i..];
    TypesetSplit(c, text[..i], text[i..], font, width, height);
    LayoutFacts(at, text[i..], font, width, height);
  }

  /** Conversely, every glyph is the glyph of some character whose cursor is inside the display. */
  lemma {:induction false} GlyphsFromVisible(c: Cursor, text: string, font: Font, width: int, height: int)
    decreases |text|
    ensures forall g :: g in TypesetFrom(c, text, font, width, height).glyphs ==>
      exists i :: 0 <= i < |text| && Visible(CursorAt(c, text, font, width, height, i), width, height)
                  && g == GlyphAt(c, text, font, width, height, i)
  {
    if |text| > 0 {
      var c1 := Advance(c, text[0], font, width);
      GlyphsFromVisible(c1, text[1..], font, width, height);
      TypesetStep(c, text, font, width, height);
      var rest := TypesetFrom(c1, text[1..], font, width, height).glyphs;
      forall g | g in TypesetFrom(c, text, font, width, height).glyphs
        ensures exists i :: 0 <= i < |text| && Visible(CursorAt(c, text, font, width, height, i), width, height)
                            && g == GlyphAt(c, text, font, width, height, i)
      {
        if g in rest {
          var j :| 0 <= j < |text[1..]| && Visible(CursorAt(c1, text[1..], font, width, height, j), width, height)
                   && g == GlyphAt(c1, text[1..], font, width, height, j);
          CursorShift(c, text, font, width, height, j);
          assert g == GlyphAt(c, text, font, width, height, j + 1);
        } else {
          assert text[..0] == [];
          assert CursorAt(c, text, font, width, height, 0) == c;
          assert g == GlyphAt(c, text, font, width, height, 0);
        }
      }
    }
  }

  /**
    `typeset(text, coffset, loffset)`: drawing starts at cell (coffset,
    loffset) and shows characters of the text in order, inside the display.
   */
  function Typeset(text: string, coffset: int, loffset: int, font: Font, width: int, height: int): (r: Layout)
    ensures Drawable(r.glyphs, width, height)
    ensures SubsequenceOf(Chars(r.glyphs), text)
    ensures |text| > 0 && coffset * font.width < width && loffset * font.height < height ==>
      |r.glyphs| > 0 && r.glyphs[0] == Glyph(text[0], coffset * font.width, loffset * font.height)
    ensures font.height >= 0 ==> r.cursor.line >= loffset * font.height
  {
    var c := Cursor(coffset * font.width, loffset * font.height);
    LayoutFacts(c, text, font, width, height);
    GlyphsInOrder(c, text, font, width, height);
    TypesetFrom(c, text, font, width, height)
  }

  /** Number of line feeds in `text`. */
  function Newlines(text: string): nat {
    if |text| == 0 then 0 else (if text[0] == '\n' then 1 else 0) + Newlines(text[1..])
  }

  /** Number of wraps while laying out `text` from `c`. */
  function Wraps(c: Cursor, text: string, font: Font, width: int): (n: nat)
    decreases |text|
    ensures n <= |text|
  {
    if |text| == 0 then 0
    else (if WrapsAfter(c, text[0], font, width) then 1 else 0)
         + Wraps(Advance(c, text[0], font, width), text[1..], font, width)
  }

  /**
    The cursor moves down by one font height per wrap and by nothing else,
    and every newline is a wrap.
   */
  lemma {:induction false} LinesFollowWraps(c: Cursor, text: string, font: Font, width: int, height: int)
    decreases |text|
    ensures TypesetFrom(c, text, font, width, height).cursor.line
            == c.line + font.height * Wraps(c, text, font, width)
    ensures Newlines(text) <= Wraps(c, text, font, width)
  {
    if |text| > 0 {
      var c1 := Advance(c, text[0], font, width);
      LinesFollowWraps(c1, text[1..], font, width, height);
      var k := Wraps(c1, text[1..], font, width);
      TypesetStep(c, text, font, width, height);
      if WrapsAfter(c, text[0], font, width) {
        assert Wraps(c, text, font, width) == k + 1;
        assert c1.line == c.line + font.height;
        assert font.height * (k + 1) == font.height * k + font.height;
      } else {
        assert Wraps(c, text, font, width) == k;
        assert text[0] != '\n';
        assert c1.line == c.line;
      }
    }
  }

  /** One pass of the layout loop. */
  lemma TypesetStep(c: Cursor, text: string, font: Font, width: int, height: int)
    requires |text| > 0
    ensures var rest := TypesetFrom(Advance(c, text[0], font, width), text[1..], font, width, height);
      TypesetFrom(c, text, font, width, height)
        == Layout(Drawn(c, text[0], width, height) + rest.glyphs, rest.cursor)
  {
  }

  /** Laying out two texts one after the other is laying out their concatenation. */
  lemma {:induction false} TypesetSplit(c: Cursor, a: string, b: string, font: Font, width: int, height: int)
    decreases |a|
    ensures var first := TypesetFrom(c, a, font, width, height);
      var second := TypesetFrom(first.cursor, b, font, width, height);
      TypesetFrom(c, a + b, font, width, height) == Layout(first.glyphs + second.glyphs, second.cursor)
  {
    if |a| > 0 {
      var c1 := Advance(c, a[0], font, width);
      assert (a + b)[0] == a[0];
      assert (a + b)[1..] == a[1..] + b;
      TypesetSplit(c1, a[1..], b, font, width, height);
      TypesetStep(c, a, font, width, height);
      TypesetStep(c, a + b, font, width, height);
      var drawn := Drawn(c, a[0], width, height);
      var tail := TypesetFrom(c1, a[1..], font, width, height);
      var second := TypesetFrom(tail.cursor, b, font, width, height);
      assert drawn + (tail.glyphs + second.glyphs) == (drawn + tail.glyphs) + second.glyphs;
    } else {
      assert a + b == b;
      var second := TypesetFrom(c, b, font, width, height);
      assert [] + second.glyphs == second.glyphs;
    }
  }

  /** Characters that all fit on the current line advance the cursor one cell each. */
  lemma {:induction false} NoWrapRun(c: Cursor, text: string, font: Font, width: int, height: int)
    requires font.width > 0
    requires forall i :: 0 <= i < |text| ==> text[i] != '\n'
    requires c.col + font.width * |text| <= width - font.width
    ensures TypesetFrom(c, text, font, width, height).cursor == Cursor(c.col + font.width * |text|, c.line)
    decreases |text|
  {
    if |text| > 0 {
      assert font.width * |text| == font.width * (|text| - 1) + font.width;
      NoWrapRun(Cursor(c.col + font.width, c.line), text[1..], font, width, height);
    }
  }

  /** Cells that fit across the display: `width // font.width`. */
  function Columns(font: Font, width: int): (n: int)
    requires font.width > 0
    ensures n * font.width <= width < (n + 1) * font.width
  {
    PyDiv(width, font.width)
  }

  /**
    A line holds exactly `width // font.width` characters: from column 0,
    a text of that length without newlines ends on the next line, column 0,
    and one character fewer stays on the line.
   */
  lemma LineCapacity(text: string, font: Font, width: int, height: int, line: int)
    requires 0 < font.width <= width
    requires |text| == Columns(font, width)
    requires forall i :: 0 <= i < |text| ==> text[i] != '\n'
    ensures var short := TypesetFrom(Cursor(0, line), text[..|text| - 1], font, width, height);
      short.cursor == Cursor(font.width * (|text| - 1), line)
    ensures TypesetFrom(Cursor(0, line), text, font, width, height).cursor == Cursor(0, line + font.height)
  {
    var n := |text|;
    var c := Cursor(0, line);
    var front := text[..n - 1];
    assert n >= 1;
    assert font.width * (n - 1) + font.width == n * font.width;
    NoWrapRun(c, front, font, width, height);
    var mid := Cursor(font.width * (n - 1), line);
    assert text == front + [text[n - 1]];
    TypesetSplit(c, front, [text[n - 1]], font, width, height);
    assert mid.col + font.width > width - font.width;
  }

  /** `typesetlist`: item k is laid out from column 0 of text line k. */
  function TypesetList(items: seq<string>, font: Font, width: int, height: int): (r: seq<Layout>)
    ensures |r| == |items|
    ensures forall k :: 0 <= k < |items| ==> r[k] == Typeset(items[k], 0, k, font, width, height)
  {
    seq(|items|, k requires 0 <= k < |items| => Typeset(items[k], 0, k, font, width, height))
  }

  /** The first character of item k is drawn at column 0, line k times the font height, when that is on screen. */
  lemma ListItemStartsOnItsLine(items: seq<string>, font: Font, width: int, height: int, k: int)
    requires 0 <= k < |items| && |items[k]| > 0
    requires 0 < width && k * font.height < height
    ensures var r := TypesetList(items, font, width, height)[k];
      |r.glyphs| > 0 && r.glyphs[0] == Glyph(items[k][0], 0, k * font.height)
  {
    LayoutFacts(Cursor(0 * font.width, k * font.height), items[k], font, width, height);
  }

  /**
    `maxchars`: whole cells across times whole cells down. A zero font
    size divides by zero.
   */
  function MaxChars(font: Font, width: int, height: int): (r: Result<int>)
    ensures r.Err? <==> font.width == 0 || font.height == 0
    ensures font.width > 0 && font.height > 0 ==>
      r == Ok(Columns(font, width) * PyDiv(height, font.height))
  {
    if font.width == 0 || font.height == 0 then Err(ZeroDivision)
    else Ok(PyDiv(width, font.width) * PyDiv(height, font.height))
  }

  /** On the 240 x 135 display the large font holds 15 x 4 characters and the small one 30 x 8. */
  lemma MaxCharsOnDisplay()
    ensures MaxChars(Font2, 240, 135) == Ok(60)
    ensures MaxChars(Font1, 240, 135) == Ok(240)
  {
  }

  // ---------------------------------------------------------------------
  // Debounced button handler

  datatype Debouncer = Debouncer(debounce: int, nextCall: int)

  /** `Button(...)`: the first call is allowed once `debounce` ms have passed. */
  function NewButton(now: int, debounce: int): (r: Debouncer)
    ensures r.debounce == debounce && r.nextCall - now == debounce
  {
    Debouncer(debounce, now + debounce)
  }

  /** `debounce_handler` at time `now`: fires after the deadline and moves the deadline. */
  function Handle(d: Debouncer, now: int): (r: (Debouncer, bool))
    ensures r.1 <==> now > d.nextCall
    ensures r.1 ==> r.0 == Debouncer(d.debounce, now + d.debounce)
    ensures !r.1 ==> r.0 == d
  {
    if now > d.nextCall then (d.(nextCall := now + d.debounce), true) else (d, false)
  }

  /** The times at which the callback runs, for interrupts at `times`. */
  function Fired(d: Debouncer, times: seq<int>): (r: seq<int>)
    decreases |times|
    ensures |r| <= |times|
    ensures forall k :: 0 <= k < |r| ==> r[k] in times
    ensures |r| > 0 ==> r[0] > d.nextCall
    ensures forall k :: 0 <= k < |r| - 1 ==> r[k + 1] > r[k] + d.debounce
  {
    if |times| == 0 then []
    else
      var h := Handle(d, times[0]);
      var rest := Fired(h.0, times[1..]);
      assert forall k :: 0 <= k < |rest| ==> rest[k] in times;
      if h.1 then [times[0]] + rest else rest
  }

  /** Interrupts spaced more than the interval apart, after the first deadline, all fire. */
  lemma {:induction false} SpacedAllFire(d: Debouncer, times: seq<int>)
    requires |times| > 0 ==> times[0] > d.nextCall
    requires forall k :: 0 <= k < |times| - 1 ==> times[k + 1] > times[k] + d.debounce
    ensures Fired(d, times) == times
    decreases |times|
  {
    if |times| > 0 {
      var d1 := Handle(d, times[0]).0;
      SpacedAllFire(d1, times[1..]);
      assert [times[0]] + times[1..] == times;
    }
  }
}
